=== FILE: README.md ===
# Pose hypotheses, FSR calibration, pass rating and field potentials

A Dafny model of four pieces of the B-Human 2024 robot soccer code. They share no integer or string logic: each one is piecewise-linear, clamping or bookkeeping logic over measurement values, stated exactly over Dafny `real`.

- **`PoseHypothesis`** models `UKFRobotPoseHypothesis`, one hypothesis of the self-locator's population.
  - `init`;
  - the 180° field mirror, with the angle normalization to (-pi, pi];
  - the running validity average;
  - `invalidate`;
  - the resampling weighting, floored at a base value.
- **`FsrCalibration`** models `FsrDataProvider`, the foot pressure sensor calibration. The provider and its published `FsrData` form one immutable `State`. `Step` advances that state by one frame, block by block, in the order of `FsrDataProvider::update`:
  - adopting an existing calibration;
  - measuring both legs (clipping, max/min tracking, ratios, "has pressure" timestamps);
  - restarting and applying the maxima refresh window;
  - counting support switches;
  - recalibrating offsets and the minimum pressure.

  `Run` folds `Step` over a sequence of frames.
- **`PassEvaluation`** models `PassEvaluationProvider`:
  - opponents shifted towards the ball;
  - the running minimum distances;
  - the shot-line, kick-range and field-border factors;
  - the rating: a product of up to five factors, floored at `minValue`, and 0 for targets outside the field.
- **`FieldRatingKernels`** and **`FieldRating`** model the value channel of `FieldRatingProviderSAC`:
  - the linear and cone kernels, and the slopes derived from the configuration;
  - the field-border, goal-angle, obstacle, teammate and ball-near potentials;
  - the teammate/ball-near combination;
  - the pass-target filter.
- **`MathTools`** and **`FieldDimensions`** hold the helpers these modules share. These are `Max`/`Min`/`Abs`, `Range::limit`, vectors, and the field's dimensions. They also hold the record of foreign numeric routines.

Foreign routines are uninterpreted function values in an `Oracles` record or a `World` record:
- `Vector2f::norm`, `angle`, `polar`, `std::sqrt`, `std::exp`/`std::pow(e, ·)`;
- `mapToRange`, `Geometry::getDistanceToEdge`;
- `FieldDimensions::isInsideField`, `ExpectedGoals::xG`.

Only two facts are assumed about them, in the predicate `WellFormed`: a norm is never negative, and an exponential is never negative. Contracts that need `mapToRange` to clamp into [0, 1] take `MapsIntoUnit` as an explicit hypothesis.

The `UKFRobotPoseHypothesis` implementation file is not part of this model, so the `PoseHypothesis` contracts rest on the header's doc comments alone. Where the header leaves a detail open, the model makes a choice, listed under "## Left out":
- The header comment of `invalidate` says that invalidation leads to "0 weighting". The comment of `computeWeightingBasedOnValidity` says only that the weighting has at least the base value. The model takes `weighting = max(validity, base)`, so an invalidated hypothesis gets exactly the base weighting (`InvalidatedWeighting`).
- The header says nothing about the covariance under `mirror`. The model rotates it congruently by 180°.
- The header does not say in which interval the mirrored rotation lies. The model normalizes it to (-pi, pi].

## Model

| member | source | states |
|---|---|---|
| PoseHypothesis.Init | Src/Modules/Modeling/SelfLocator/UKFRobotPoseHypothesis.h:30-36 | id and validity are exactly the arguments; the mean is the given pose; the covariance is diagonal, each variance the square of its deviation (non-negative); the weighting is left for the weighting computation |
| PoseHypothesis.Normalize | Src/Modules/Modeling/SelfLocator/UKFRobotPoseHypothesis.h:38-39 | the normalized angle lies in (-pi, pi] and differs from the input by a whole number of turns |
| PoseHypothesis.NormalizeCharacterized | Src/Modules/Modeling/SelfLocator/UKFRobotPoseHypothesis.h:38-39 | any angle in (-pi, pi] that differs from `a` by whole turns is `Normalize(a)`: the normalization is unique |
| PoseHypothesis.NormalizeFixesNormalized | Src/Modules/Modeling/SelfLocator/UKFRobotPoseHypothesis.h:38-39 | an angle already in (-pi, pi] is unchanged |
| PoseHypothesis.MirrorPose | Src/Modules/Modeling/SelfLocator/UKFRobotPoseHypothesis.h:38-39 | the pose turned by 180° about the field's center: (x, y, θ) becomes (-x, -y, normalize(θ + pi)) |
| PoseHypothesis.MirrorCovariance | Src/Modules/Modeling/SelfLocator/UKFRobotPoseHypothesis.h:38-39 | the covariance rotated congruently: variances and the x/y correlation stay, the position/rotation correlations flip sign |
| PoseHypothesis.Mirror | Src/Modules/Modeling/SelfLocator/UKFRobotPoseHypothesis.h:38-39 | the mean is mirrored with its rotation in (-pi, pi]; the covariance is the mirrored covariance; weighting, validity and id are untouched |
| PoseHypothesis.MirrorTwice | Src/Modules/Modeling/SelfLocator/UKFRobotPoseHypothesis.h:38-39 | mirroring twice restores a hypothesis whose rotation is normalized (mean and covariance) |
| PoseHypothesis.UpdateValidity | Src/Modules/Modeling/SelfLocator/UKFRobotPoseHypothesis.h:41-45 | the new validity times `frames` is the old validity weighted by `frames - 1` plus the current one; nothing else changes |
| PoseHypothesis.UpdateValidityOneFrame | Src/Modules/Modeling/SelfLocator/UKFRobotPoseHypothesis.h:41-45 | with one frame the validity becomes exactly the current validity |
| PoseHypothesis.UpdateValidityBetween | Src/Modules/Modeling/SelfLocator/UKFRobotPoseHypothesis.h:41-45 | the new validity lies between the old and the current one, strictly between them for more than one frame when they differ |
| PoseHypothesis.UpdateValidityInUnit | Src/Modules/Modeling/SelfLocator/UKFRobotPoseHypothesis.h:26-45 | validities in [0, 1] stay in [0, 1] |
| PoseHypothesis.Invalidate | Src/Modules/Modeling/SelfLocator/UKFRobotPoseHypothesis.h:47-50 | validity becomes 0 and nothing else changes |
| PoseHypothesis.ComputeWeightingBasedOnValidity | Src/Modules/Modeling/SelfLocator/UKFRobotPoseHypothesis.h:52-56 | the weighting is at least the base value and at least the validity, equal to one of them; nothing else changes |
| PoseHypothesis.InvalidatedWeighting | Src/Modules/Modeling/SelfLocator/UKFRobotPoseHypothesis.h:47-56 | an invalidated hypothesis gets exactly the base weighting, so its weighting is 0 iff the base is 0 |
| PoseHypothesis.WeightingInUnit | Src/Modules/Modeling/SelfLocator/UKFRobotPoseHypothesis.h:52-56 | with validity and base in [0, 1] the weighting is in [0, 1] |
| FsrCalibration.Initial | Src/Modules/Sensing/FsrDataProvider/FsrDataProvider.cpp:12-29 | the constructor's state satisfies the invariant iff `maxPressure >= 0` and `minPressure.max > 0`: offsets 0, windowed minima `maxPressure`, all-time and windowed maxima (per sensor and per leg) `minPressure.max`, no leg had pressure, counter 0 |
| FsrCalibration.AdoptCalibration | Src/Modules/Sensing/FsrDataProvider/FsrDataProvider.cpp:33-40 | published data becomes calibrated iff it was, or the provider was, or the robot is simulated; an uncalibrated representation publishes the provider's minimum-pressure share; a calibrated one is left alone |
| FsrCalibration.CalibratedPressure | Src/Modules/Sensing/FsrDataProvider/FsrDataProvider.cpp:57 | with a non-negative offset the calibrated pressure lies in [0, maxPressure]; 0 for a switched-off sensor or a reading at most the offset; reading minus offset inside the range |
| FsrCalibration.FootPressure | Src/Modules/Sensing/FsrDataProvider/FsrDataProvider.cpp:45-58 | the summed foot pressure is never negative |
| FsrCalibration.StepSensor | Src/Modules/Sensing/FsrDataProvider/FsrDataProvider.cpp:57-64 | the all-time and windowed maxima become the larger of their old value and this frame's pressure, the windowed minimum the smaller; the offset stays; the ratio lies in [0, 1] and is the pressure over the all-time maximum |
| FsrCalibration.Share | Src/Modules/Sensing/FsrDataProvider/FsrDataProvider.cpp:90-91 | the sagittal and lateral ratios lie in [0, 1], are 0 when the pressure sum is 0, and are the part over the sum otherwise |
| FsrCalibration.PressureTimes | Src/Modules/Sensing/FsrDataProvider/FsrDataProvider.cpp:82-95 | every stamp of a leg (`PressureStamped`): each direction stamp is the current time iff its pressure exceeds the predicted-switch share of `minPressure.max`, else it is kept; `hasPressureSince` moves to now iff the foot gained pressure on a new frame (line 89's test of the stamp stored at line 84 reduces to that); a foot above `minPressure.max` is stamped now, and one below it is stamped now iff it exceeds the relaxed threshold of line 95, else it keeps the stored stamp |
| FsrCalibration.UpdateLeg | Src/Modules/Sensing/FsrDataProvider/FsrDataProvider.cpp:47-95 | one leg keeps its tracker invariant, every sensor is tracked, both leg maxima become the larger of their old value and the foot pressure, the leg's pressure stamp is the current time iff the foot bears more than `minPressure.max`, everything it publishes is a ratio in [0, 1], and its stamps follow lines 83-95 for the sensor pressures of this frame (`LegStamped`) |
| FsrCalibration.MeasureLegs | Src/Modules/Sensing/FsrDataProvider/FsrDataProvider.cpp:42-96 | both legs are tracked and published, the invariant holds, the current maximum foot pressure becomes the largest of its old value and both feet's pressures, both legs' stamps follow lines 83-95 (`LegStamped`), and nothing else changes |
| FsrCalibration.RestartRefreshWindow | Src/Modules/Sensing/FsrDataProvider/FsrDataProvider.cpp:98-101 | the refresh window restarts at the current time when the robot does not walk or a leg has had no pressure for too long; otherwise the state is unchanged; only that timestamp ever changes |
| FsrCalibration.RefreshLeg | Src/Modules/Sensing/FsrDataProvider/FsrDataProvider.cpp:107-116 | every sensor's and the leg's windowed maximum becomes its maximum, and every windowed maximum restarts at `minPressure.max`; offsets, minima and the pressure stamp are untouched |
| FsrCalibration.RefreshHighest | Src/Modules/Sensing/FsrDataProvider/FsrDataProvider.cpp:103-117 | when the window has outlasted `highestPressureUpdateTime` at a support switch, both legs are refreshed and the window restarts now; otherwise the state is unchanged; the invariant holds |
| FsrCalibration.CountSupportSwitch | Src/Modules/Sensing/FsrDataProvider/FsrDataProvider.cpp:119-132 | the counter becomes 0 unless walking, rises by exactly 1 for a counted switch, otherwise stays; every switch stamps `lastSupportSwitch`; a counted switch adds the current maximum foot pressure to the sum and resets it to 0, otherwise both stay; the invariant (counter >= 0) holds |
| FsrCalibration.CalibratedMinPressure | Src/Modules/Sensing/FsrDataProvider/FsrDataProvider.cpp:147-149 | the new `minPressure.max` lies in `minPressureRange`, at its ends when the average foot pressure is beyond the interpolation values |
| FsrCalibration.CalibratedMinPressureMonotone | Src/Modules/Sensing/FsrDataProvider/FsrDataProvider.cpp:147-149 | a higher average foot pressure never yields a lower `minPressure.max` |
| FsrCalibration.Recalibrate | Src/Modules/Sensing/FsrDataProvider/FsrDataProvider.cpp:134-155 | without enough switches nothing changes; with enough, offsets become the windowed minima, minima restart at `maxPressure`, the counter and the sum are reset, `minPressure.max` becomes the calibrated value of the average foot pressure per counted switch, `minPressurePercent` is it over that average, and the data is calibrated; nothing else changes |
| FsrCalibration.Step | Src/Modules/Sensing/FsrDataProvider/FsrDataProvider.cpp:31-158 | one update keeps the invariant, stamps `lastUpdateTimestamp`, never loses the calibration, zeroes the counter unless walking, and changes the counter only to 0, by nothing, or by +1 on a counted switch |
| FsrCalibration.StepPublishes | Src/Modules/Sensing/FsrDataProvider/FsrDataProvider.cpp:56-95 | after a frame every published sensor, leg, sagittal and lateral ratio is in [0, 1]; the shares are 0 for a foot without pressure; a foot above `minPressure.max` has pressure now; every stamp of both legs follows lines 83-95 against the previous frame's stamps (`LegStamped`) |
| FsrCalibration.StepTracksLegs | Src/Modules/Sensing/FsrDataProvider/FsrDataProvider.cpp:60-142 | after a frame the sensor and leg maxima dominate this frame's pressures; offsets become the window minima (this frame included) exactly when the counter reaches the threshold, otherwise stay |
| FsrCalibration.StepCalibrates | Src/Modules/Sensing/FsrDataProvider/FsrDataProvider.cpp:119-155 | below the threshold the counter follows the switches and the minimum pressure stays; at the threshold the data is calibrated, the counter restarts and the new minimum pressure lies in range and is published |
| FsrCalibration.Run | Src/Modules/Sensing/FsrDataProvider/FsrDataProvider.cpp:31-158 | any run of frames keeps the invariant (offsets >= 0, divisors > 0, counter >= 0), never loses the calibration, and ends stamped with the last frame's time |
| PassEvaluation.ShiftFactor | Src/Modules/BehaviorControl/PassEvaluationProvider/PassEvaluationProvider.cpp:83-85 | the opponent-to-ball vector is scaled so that its length becomes `min(opponentShiftToBall, distance)`: a factor in [0, 1] for a non-negative shift |
| PassEvaluation.ShiftOpponent | Src/Modules/BehaviorControl/PassEvaluationProvider/PassEvaluationProvider.cpp:83-85 | the opponent moves along the vector to the ball by that factor; an opponent on the ball stays there |
| PassEvaluation.ShiftStaysOnSegment | Src/Modules/BehaviorControl/PassEvaluationProvider/PassEvaluationProvider.cpp:83-85 | the shifted opponent lies between its position and the ball in both coordinates: never shifted past the ball |
| PassEvaluation.UpdateParameters | Src/Modules/BehaviorControl/PassEvaluationProvider/PassEvaluationProvider.cpp:77-88 | exactly one shifted position per opponent, in order |
| PassEvaluation.ShiftedOpponentsBetween | Src/Modules/BehaviorControl/PassEvaluationProvider/PassEvaluationProvider.cpp:77-88 | every shifted opponent lies between its observed position and the ball |
| PassEvaluation.UpdateMinDistances | Src/Modules/BehaviorControl/PassEvaluationProvider/PassEvaluationProvider.cpp:90-98 | neither running minimum increases; each ends at most the obstacle's distance and equals the old minimum or that distance |
| PassEvaluation.MinDistancesOver | Src/Modules/BehaviorControl/PassEvaluationProvider/PassEvaluationProvider.cpp:51-55 | the loop yields the minimum of the start values and every obstacle's distances, attained by the start or by some obstacle |
| PassEvaluation.IsShotLineFree | Src/Modules/BehaviorControl/PassEvaluationProvider/PassEvaluationProvider.cpp:100-117 | 1 when the base is past the opponent goal line; in [0, 2] when `mapToRange` clamps |
| PassEvaluation.MaxPassDistance | Src/Modules/BehaviorControl/PassEvaluationProvider/PassEvaluationProvider.cpp:121 | the free-kick threshold iff it is an own free kick, the playing threshold otherwise |
| PassEvaluation.IsTargetInRange | Src/Modules/BehaviorControl/PassEvaluationProvider/PassEvaluationProvider.cpp:119-124 | exactly 1 when the target is closer than the maximum pass distance; never negative; the deviation must be non-zero only when the Gaussian is evaluated |
| PassEvaluation.TargetInRangeInUnit | Src/Modules/BehaviorControl/PassEvaluationProvider/PassEvaluationProvider.cpp:119-124 | when `exp` of a non-positive argument lies in [0, 1], the range factor lies in [0, 1]: the Gaussian's exponent is never positive |
| PassEvaluation.DistanceToFieldBorder | Src/Modules/BehaviorControl/PassEvaluationProvider/PassEvaluationProvider.cpp:126-130 | never negative; positive iff the point is strictly inside the field; at most the distance to the goal lines and to the touchlines |
| PassEvaluation.DistanceToFieldBorderSymmetric | Src/Modules/BehaviorControl/PassEvaluationProvider/PassEvaluationProvider.cpp:126-130 | negating either coordinate leaves the border distance unchanged |
| PassEvaluation.MappedFactor | Src/Modules/BehaviorControl/PassEvaluationProvider/PassEvaluationProvider.cpp:58-64 | a switched-off factor is exactly 1; an enabled one is in [0, 1] when `mapToRange` clamps |
| PassEvaluation.RatingFactors | Src/Modules/BehaviorControl/PassEvaluationProvider/PassEvaluationProvider.cpp:57-70 | every factor whose flag is off is exactly 1; the pass line is 1 while positioning; a base past the goal line never blocks a shot; a target in kick range is fully in range; the mapped factors are in [0, 1] |
| PassEvaluation.GetRating | Src/Modules/BehaviorControl/PassEvaluationProvider/PassEvaluationProvider.cpp:41-75 | 0 for a target outside the field; inside, at least `minValue` and the floored product of the factors |
| PassEvaluation.Floored | Src/Modules/BehaviorControl/PassEvaluationProvider/PassEvaluationProvider.cpp:73-74 | at least `minValue`, equal to it or to the product, and the product whenever that reaches `minValue` |
| PassEvaluation.AllFactorsOff | Src/Modules/BehaviorControl/PassEvaluationProvider/PassEvaluationProvider.cpp:57-74 | with every factor switched off an in-field target is rated `max(minValue, 1)` |
| PassEvaluation.ProductInUnit | Src/Modules/BehaviorControl/PassEvaluationProvider/PassEvaluationProvider.cpp:73 | a product of five factors in [0, 1] lies in [0, 1] |
| PassEvaluation.FlooredInUnit | Src/Modules/BehaviorControl/PassEvaluationProvider/PassEvaluationProvider.cpp:73-74 | with a floor in [0, 1] and factors in [0, 1] the combined value is a probability |
| PassEvaluation.RatingIsProbability | Src/Modules/BehaviorControl/PassEvaluationProvider/PassEvaluationProvider.cpp:41-75 | the rating lies in [0, 1] when the floor does, `mapToRange` clamps, `exp` decays on non-positive arguments, and the shot-line factor of an in-field target is in [0, 1] |
| FieldRatingKernels.FunctionLinear | Src/Modules/BehaviorControl/FieldRatingProvider/FieldRatingProviderSAC.cpp:112-115 | never negative; 0 at or beyond the radius for a non-negative slope; the linear fall-off inside it |
| FieldRatingKernels.FunctionLinearMonotone | Src/Modules/BehaviorControl/FieldRatingProvider/FieldRatingProviderSAC.cpp:112-115 | with a non-negative slope the kernel never grows with distance |
| FieldRatingKernels.FunctionLinearPeak | Src/Modules/BehaviorControl/FieldRatingProvider/FieldRatingProviderSAC.cpp:112-115 | with the slope value / radius the kernel is exactly the value at distance 0 and never above it |
| FieldRatingKernels.FunctionCone | Src/Modules/BehaviorControl/FieldRatingProvider/FieldRatingProviderSAC.cpp:122-127 | 0 when too far or too wide, never negative |
| FieldRatingKernels.FunctionConeBounded | Src/Modules/BehaviorControl/FieldRatingProvider/FieldRatingProviderSAC.cpp:122-127 | the cone is the value at its tip and never above it |
| FieldRatingKernels.Derive | Src/Modules/BehaviorControl/FieldRatingProvider/FieldRatingProviderSAC.cpp:11-51 | every slope times its range is its configured value; the best ball range is centred on `bestDistanceForBall` and proper iff the width is non-negative; inner posts and the pass line are placed from the field dimensions |
| FieldRating.BorderRating | Src/Modules/BehaviorControl/FieldRatingProvider/FieldRatingProviderSAC.cpp:249-252 | one border's rating is never negative and 0 beyond `fieldBorderRange` |
| FieldRating.FieldBorderPotential | Src/Modules/BehaviorControl/FieldRatingProvider/FieldRatingProviderSAC.cpp:240-300 | never above `fieldBorderValue`, never below `min(0, fieldBorderValue)`, and exactly that deep inside the field |
| FieldRating.FieldBorderOnTouchline | Src/Modules/BehaviorControl/FieldRatingProvider/FieldRatingProviderSAC.cpp:240-300 | with the derived slope a point on or beyond the left touchline is rated exactly `fieldBorderValue` |
| FieldRating.FieldBorderNonNegative | Src/Modules/BehaviorControl/FieldRatingProvider/FieldRatingProviderSAC.cpp:240-300 | with a non-negative derived slope the border potential is never negative |
| FieldRating.GoalAnglePotential | Src/Modules/BehaviorControl/FieldRatingProvider/FieldRatingProviderSAC.cpp:428-433 | never negative; 0 up to the penalty-area line and strictly between the inner goal posts |
| FieldRating.GoalAngleLinear | Src/Modules/BehaviorControl/FieldRatingProvider/FieldRatingProviderSAC.cpp:428-433 | beside the goal the potential grows linearly past the penalty-area line and reaches `betterGoalAngleValue` at the goal line |
| FieldRating.FieldObstacles | Src/Modules/BehaviorControl/FieldRatingProvider/FieldRatingProviderSAC.cpp:313-320 | an entry is kept only if its x lies within the field length, and every such obstacle is kept; none is a goal post |
| FieldRating.FieldObstaclesCount | Src/Modules/BehaviorControl/FieldRatingProvider/FieldRatingProviderSAC.cpp:314-320 | each kept obstacle occurs exactly as often as in the input, and nothing else occurs: duplicates are neither dropped nor merged |
| FieldRating.FieldObstaclesAppend | Src/Modules/BehaviorControl/FieldRatingProvider/FieldRatingProviderSAC.cpp:314-320 | filtering a concatenation is the concatenation of the filtered parts: the kept obstacles stay in input order |
| FieldRating.FieldObstacleSingle | Src/Modules/BehaviorControl/FieldRatingProvider/FieldRatingProviderSAC.cpp:316-319 | a single obstacle becomes one non-post entry iff its x lies within the field length, and none otherwise |
| FieldRating.ObstaclesOnField | Src/Modules/BehaviorControl/FieldRatingProvider/FieldRatingProviderSAC.cpp:313-323 | the field obstacles followed by the left and right goal posts |
| FieldRating.NearestSquaredDistance | Src/Modules/BehaviorControl/FieldRatingProvider/FieldRatingProviderSAC.cpp:330-340 | the minimum of the robot's and every teammate's squared distance to the point, attained by one of them |
| FieldRating.VectorToObstacle | Src/Modules/BehaviorControl/FieldRatingProvider/FieldRatingProviderSAC.cpp:351-353 | the vector from the point to the obstacle when that is non-zero; (0.00001, 0) when the point is on the obstacle; never zero |
| FieldRating.SingleObstacleRating | Src/Modules/BehaviorControl/FieldRatingProvider/FieldRatingProviderSAC.cpp:351-372 | never negative; 0 for an obstacle farther than the nearest own robot |
| FieldRating.RepelRating | Src/Modules/BehaviorControl/FieldRatingProvider/FieldRatingProviderSAC.cpp:349-380 | the sum over obstacles is never negative and 0 when every obstacle is too far |
| FieldRating.RepelRange | Src/Modules/BehaviorControl/FieldRatingProvider/FieldRatingProviderSAC.cpp:342-346 | the repelling range is positive |
| FieldRating.ObstaclePotential | Src/Modules/BehaviorControl/FieldRatingProvider/FieldRatingProviderSAC.cpp:302-387 | never negative and 0 in the opponent goal mouth |
| FieldRating.ObstaclesBehindTeammatesIgnored | Src/Modules/BehaviorControl/FieldRatingProvider/FieldRatingProviderSAC.cpp:349-356 | when every obstacle and post is farther than the nearest own robot, the obstacle potential is 0 |
| FieldRating.ClippedBall | Src/Modules/BehaviorControl/FieldRatingProvider/FieldRatingProviderSAC.cpp:481-482 | the ball keeps its y and is moved forward to at least the own goal area |
| FieldRating.RangeInterpolation | Src/Modules/BehaviorControl/FieldRatingProvider/FieldRatingProviderSAC.cpp:471 | in [0, 1]; 0 for a teammate within the minimum pass distance of the ball |
| FieldRating.SigmoidRating | Src/Modules/BehaviorControl/FieldRatingProvider/FieldRatingProviderSAC.cpp:508-511 | the sigmoid share of a non-negative rating lies in [0, rating] |
| FieldRating.Terms | Src/Modules/BehaviorControl/FieldRatingProvider/FieldRatingProviderSAC.cpp:500-525 | the sigmoid lies in [0, passTargetValue]; the distance-change and kick factors lie in [0, 1] when `mapToRange` clamps |
| FieldRating.PassScale | Src/Modules/BehaviorControl/FieldRatingProvider/FieldRatingProviderSAC.cpp:525 | the pass scale lies in [1/2, 1], and is exactly 1/2 without a distance gain or kick distance |
| FieldRating.Attraction | Src/Modules/BehaviorControl/FieldRatingProvider/FieldRatingProviderSAC.cpp:516-526 | the scaled attraction lies in [-sigmoid, 0], is strictly negative when it attracts at all, and is unscaled otherwise |
| FieldRating.TeammateRating | Src/Modules/BehaviorControl/FieldRatingProvider/FieldRatingProviderSAC.cpp:500-527 | one teammate's rating lies in [-passTargetValue, 0] |
| FieldRating.TeammateRatings | Src/Modules/BehaviorControl/FieldRatingProvider/FieldRatingProviderSAC.cpp:493-533 | one rating per teammate, in order, each in [-passTargetValue, 0] |
| FieldRating.TeammatesSum | Src/Modules/BehaviorControl/FieldRatingProvider/FieldRatingProviderSAC.cpp:489-534 | the sum lies in [-n * passTargetValue, 0] for n teammates |
| FieldRating.TeammatesPotential | Src/Modules/BehaviorControl/FieldRatingProvider/FieldRatingProviderSAC.cpp:479-535 | 0 in the opponent goal mouth; never positive and never below -n * passTargetValue for n teammates |
| FieldRating.BorderBlend | Src/Modules/BehaviorControl/FieldRatingProvider/FieldRatingProviderSAC.cpp:566-572 | unchanged inside the sector, exactly ballRating / 2 at its edge (continuity), and within [-ballRating / 2, ballRating / 2] |
| FieldRating.BallNearPotential | Src/Modules/BehaviorControl/FieldRatingProvider/FieldRatingProviderSAC.cpp:537-578 | 0 in the opponent goal mouth; exactly ballRating / 2 outside the ball-goal sector |
| FieldRating.SectorRatingBounded | Src/Modules/BehaviorControl/FieldRatingProvider/FieldRatingProviderSAC.cpp:548-558 | inside the sector the rating lies in [-ballRating / 2, ballRating / 2] |
| FieldRating.BallNearBounded | Src/Modules/BehaviorControl/FieldRatingProvider/FieldRatingProviderSAC.cpp:537-578 | the ball-near potential always lies in [-ballRating / 2, ballRating / 2] |
| FieldRating.RemoveBallNearFromTeammatePotential | Src/Modules/BehaviorControl/FieldRatingProvider/FieldRatingProviderSAC.cpp:82-86 | non-negative values are unchanged; the value never increases; it stays negative iff it was; a non-positive ball-near value changes nothing |
| FieldRating.PassTarget | Src/Modules/BehaviorControl/FieldRatingProvider/FieldRatingProviderSAC.cpp:594 | the target has the teammate's y and an x at least 300 mm ahead of the ball and at least `bestRelativePose` ahead of the teammate |
| FieldRating.PossiblePassTargets | Src/Modules/BehaviorControl/FieldRatingProvider/FieldRatingProviderSAC.cpp:580-602 | at most one target per teammate, in teammate order; each is that teammate's pass target; a teammate yields one iff it passes both filters |

## Left out

- The Unscented Kalman filter arithmetic: predict, `updateByLandmark`, `updateByLine`, `updateByLineOnCenterCircle`, `updateByPose` and `getCombinedVariance`. It lives in `UKFPose2D` and in `UKFRobotPoseHypothesis.cpp`, which are not part of this model.
- Hypothesis population, resampling, best-hypothesis selection and symmetry resolution: none of this code is part of this model.
- The header's claim that `invalidate` "will automatically lead to 0 weighting". It contradicts the weighting floor, and the floor is modelled instead.
- PoseHypothesis.UpdateValidity requires `frames >= 1`. The header gives no meaning to `frames <= 0`, where the float code divides by zero or weights the old validity negatively.
- `FieldRatingProviderSAC::getGoalPotential`, with `attractRange` and `attractRTV` that only it uses.
- Every direction vector of the potentials: `functionLinearDer`, `functionConeDer` and the normalizations. Only the value channel is modelled.
- `draw()` in both providers, and the debug `MODIFY`, `DEBUG_RESPONSE` and `OUTPUT_TEXT` statements (logging and drawing).
- Foreign routines are uninterpreted: norm, sqrt, angle, polar, exp, `mapToRange`, `getDistanceToEdge`, `isInsideField`, `xG` and `SystemCall::getMode`. The simulator check becomes a frame input. Only "norm >= 0" and "exp >= 0" are assumed.
- Per-frame caches are not modelled. The caches in question:
  - `lastUpdateParameters` and `opponentsOnField`;
  - `obstaclesOnField`, `teammateInField`, `teammateOffsetToGoal` and `teammateRangeInterpolation`.

  The model recomputes their values on every call, which gives the same result within one frame.
- World transforms are inputs: `theRobotPose * center`, `getFuturePosition` and `recentBallPositionOnField`.
- Float rounding and 32-bit float behaviour: values are exact reals. A float division by zero appears only as the `Quotient` result of `minPressurePercent`.
- FsrCalibration.ValidConfig demands four things the code never checks:
  - a positive `minPressureRange.min`: the maxima start at `minPressure.max`, and the code divides by them;
  - ordered interpolation values: the code divides by their difference;
  - a non-negative `maxPressure`: the clipping at line 57 keeps calibrated pressures in [0, maxPressure] only then;
  - `numOfSupportSwitches >= 1`: with 0 or less the test at line 135 passes at a counter of 0, and line 147 divides `maxFootSumPressure` by that zero counter.
- FieldRatingKernels.ValidConfig demands positive values that `FieldRatingProviderSAC.cpp` divides by without a check:
  - `fieldBorderRange`, `passAttractRange`, `ballRange` and `opponentBackRangeY` (lines 43-48), and a penalty area before the goal line, so that `betterGoalAngleRange` is positive (line 46);
  - `opponentDistanceToGoal` (line 343);
  - `opponentBackShiftY` and `opponentBackRangeX` (lines 370-371);
  - `maxTeammatePassDistance` (line 471) and `ballGoalSectorBorderWidth` (line 570).
- FieldRatingKernels.ValidConfig also demands positive `minRepelDifferenceRange` and `maxRepelDifferenceRange`. Line 348 divides only by their mix weighted by the distance to the goal. Positive ranges keep that mix positive, but they also exclude configurations where one range is 0 or negative and the mix is still non-zero.
- PassEvaluation.IsTargetInRange requires a non-zero `distancePenaltyDeviation` when the target is at or beyond the maximum pass distance: the code then divides by its square. `RatingFactors`, `GetRating` and `RatingIsProbability` demand this only where `isTargetInRange` is called, that is for an in-field target with `calcShotDistance` on.
- FieldRatingKernels.FunctionCone requires non-zero radius and maximum angle, its divisors.
- PassEvaluation.ShiftFactor states the shift's length through the scaling factor (`factor * norm == min(shift, norm)`). Because norm is uninterpreted, the norm of the scaled vector itself is not derived.
- PassEvaluation.IsShotLineFree is only bounded by [0, 2]. Whether the two angle transitions can both be positive depends on the angle geometry, which is not modelled.
- PassEvaluation.RatingIsProbability takes the shot-line factor in [0, 1] as a hypothesis, because it depends on the expected-goals rating, which is not modelled. For the kick-range factor it assumes only that `exp` of a non-positive argument lies in [0, 1] (`ExpDecays`).
- FieldRating.TeammatesPotential states its lower bound with `Times(n, passTargetValue)`, the n-fold sum. `TimesIsProduct` proves that this equals n * passTargetValue.
- FsrCalibration.Initial builds the state for any configuration, as the constructor does. It meets the invariant `Inv`, which `Step` requires, only when `maxPressure >= 0` and `minPressure.max > 0`. With `minPressure.max <= 0` the maxima start at or below 0. A sensor that then reads 0 makes line 64 of `FsrDataProvider.cpp` compute 0 / 0, which the model does not represent.
- PoseHypothesis.ComputeWeightingBasedOnValidity: the header promises only that the weighting "will have at least this value". The formula `max(validity, base)` is a modelling choice, since the implementation file is not part of this model.
- PoseHypothesis.MirrorPose: the header says only that `mirror` turns the pose by 180°. It fixes no interval for the resulting rotation; normalizing it to (-pi, pi] is a modelling choice.
- PoseHypothesis.MirrorCovariance: the header says nothing about the covariance under `mirror`. The congruent rotation by 180° (position/rotation correlations change sign) is a modelling choice.

=== FILE: fielddimensions.dfy ===
/** The subset of `FieldDimensions` the behaviour modules read. The opponent
    goal is on the positive x side, the left touchline on the positive y side. */
module FieldDimensions {

  datatype Dimensions = Dimensions(
    xPosOpponentGoalLine: real,
    xPosOwnGoalLine: real,
    xPosOpponentPenaltyArea: real,
    xPosOwnGoalArea: real,
    yPosLeftTouchline: real,
    yPosRightTouchline: real,
    yPosLeftGoal: real,
    yPosRightGoal: real,
    goalPostRadius: real)

  /** A point on or behind the opponent goal line, strictly between the goal
      posts: "the goal is always good" for the obstacle, teammate and
      ball-near potentials. */
  predicate InOpponentGoalMouth(fd: Dimensions, x: real, y: real) {
    x >= fd.xPosOpponentGoalLine && y < fd.yPosLeftGoal && y > fd.yPosRightGoal
  }
}

=== FILE: fieldrating.dfy ===
/** The value channel of the potentials `FieldRatingProviderSAC` offers to the
    behaviour: field border, goal angle, obstacles, teammates and the ball-near
    sector, plus the pass-target filter. Lower values are better positions.
    The direction vectors, the world-model transformations (robot pose times
    obstacle, teammates' predicted positions) and the per-frame caches are not
    modelled: their results are parameters. */
module FieldRating {

  import opened MathTools
  import opened FieldDimensions
  import opened FieldRatingKernels

  // ---------------------------------------------------------------------
  // Lines 240-300: the field border

  /** The point is at least `fieldBorderRange` away from all four field
      borders, so no border kernel reaches it. */
  predicate DeepInside(c: Config, fd: Dimensions, x: real, y: real) {
    && fd.yPosLeftTouchline - y >= c.fieldBorderRange
    && y - fd.yPosRightTouchline >= c.fieldBorderRange
    && x - fd.xPosOwnGoalLine >= c.fieldBorderRange
    && fd.xPosOpponentGoalLine - x >= c.fieldBorderRange
  }

  /** One border's contribution: the linear kernel while within range. */
  function BorderRating(c: Config, d: Derived, distance: real): (r: real)
    ensures r >= 0.0
    ensures distance >= c.fieldBorderRange ==> r == 0.0
  {
    if distance < c.fieldBorderRange then FunctionLinear(distance, c.fieldBorderRange, d.fieldBorderRTV) else 0.0
  }

  /** Near the opponent goal line the front border only counts beside the
      goal, outside 1.5 post radii from the posts. */
  predicate BesideGoal(fd: Dimensions, y: real) {
    y > fd.yPosLeftGoal - 1.5 * fd.goalPostRadius || y < fd.yPosRightGoal + 1.5 * fd.goalPostRadius
  }

  /** `getFieldBorderPotential`: the sum of the border kernels, capped at
      `fieldBorderValue`. */
  function FieldBorderPotential(c: Config, d: Derived, fd: Dimensions, x: real, y: real): (v: real)
    ensures v <= c.fieldBorderValue
    ensures v >= Min(0.0, c.fieldBorderValue)
    ensures DeepInside(c, fd, x, y) ==> v == Min(0.0, c.fieldBorderValue)
  {
    var leftDistance := Max(fd.yPosLeftTouchline - y, 0.0);
    var rightDistance := Max(y - fd.yPosRightTouchline, 0.0);
    var backDistance := Max(x - fd.xPosOwnGoalLine, 0.0);
    var leftRightDistance := Max(fd.xPosOpponentGoalLine - x, 0.0);
    var front := if BesideGoal(fd, y) then BorderRating(c, d, leftRightDistance) else 0.0;
    var sum := BorderRating(c, d, leftDistance) + BorderRating(c, d, rightDistance)
               + BorderRating(c, d, backDistance) + front;
    if sum > c.fieldBorderValue then c.fieldBorderValue else sum
  }

  /** With the derived slope, a point on or beyond a touchline is rated
      exactly `fieldBorderValue`: its own border kernel alone reaches the cap. */
  lemma {:induction false} FieldBorderOnTouchline(c: Config, fd: Dimensions, x: real, y: real)
    requires ValidConfig(c, fd) && c.fieldBorderValue >= 0.0
    requires y >= fd.yPosLeftTouchline
    ensures FieldBorderPotential(c, Derive(c, fd), fd, x, y) == c.fieldBorderValue
  {
    var d := Derive(c, fd);
    QuotientBounds(c.fieldBorderValue, c.fieldBorderRange);
    assert BorderRating(c, d, 0.0) == c.fieldBorderValue;
  }

  /** With the derived, non-negative slope the border potential is never
      negative: the cap `fieldBorderValue` is then non-negative too. */
  lemma {:induction false} FieldBorderNonNegative(c: Config, fd: Dimensions, x: real, y: real)
    requires ValidConfig(c, fd) && Derive(c, fd).fieldBorderRTV >= 0.0
    ensures FieldBorderPotential(c, Derive(c, fd), fd, x, y) >= 0.0
  {
    MulNonNegative(Derive(c, fd).fieldBorderRTV, c.fieldBorderRange);
  }

  // ---------------------------------------------------------------------
  // Lines 428-445: the goal angle

  /** Strictly between the inner sides of the goal posts. */
  predicate BetweenInnerPosts(fd: Dimensions, y: real) {
    y < fd.yPosLeftGoal - fd.goalPostRadius && y > fd.yPosRightGoal + fd.goalPostRadius
  }

  /** `getGoalAnglePotential`: beside the goal and past the penalty area, a
      linear kernel pushes back towards the own half. */
  function GoalAnglePotential(d: Derived, fd: Dimensions, x: real, y: real): (v: real)
    ensures v >= 0.0
    ensures x <= fd.xPosOpponentPenaltyArea ==> v == 0.0
    ensures BetweenInnerPosts(fd, y) ==> v == 0.0
  {
    if x > fd.xPosOpponentPenaltyArea && !BetweenInnerPosts(fd, y) then
      FunctionLinear(fd.xPosOpponentGoalLine - x, d.betterGoalAngleRange, d.betterGoalAngleRTV)
    else 0.0
  }

  /** With the derived slope the goal-angle potential grows linearly with the
      distance past the penalty area line, from 0 there to
      `betterGoalAngleValue` on the goal line. */
  lemma {:induction false} GoalAngleLinear(c: Config, fd: Dimensions, x: real, y: real)
    requires ValidConfig(c, fd) && c.betterGoalAngleValue >= 0.0
    requires x > fd.xPosOpponentPenaltyArea && !BetweenInnerPosts(fd, y)
    ensures GoalAnglePotential(Derive(c, fd), fd, x, y)
            == (x - fd.xPosOpponentPenaltyArea) * Derive(c, fd).betterGoalAngleRTV
    ensures GoalAnglePotential(Derive(c, fd), fd, fd.xPosOpponentGoalLine, y) == c.betterGoalAngleValue
  {
    var d := Derive(c, fd);
    QuotientBounds(c.betterGoalAngleValue, d.betterGoalAngleRange);
    assert d.betterGoalAngleRTV >= 0.0;
    assert d.betterGoalAngleRange - (fd.xPosOpponentGoalLine - x) == x - fd.xPosOpponentPenaltyArea;
  }

  // ---------------------------------------------------------------------
  // Lines 302-387: obstacles

  datatype ObstacleEntry = ObstacleEntry(position: Vec2, isGoalPost: bool)

  /** Lines 314-320: obstacles whose x lies within the field length, in order. */
  function FieldObstacles(fd: Dimensions, obstacles: seq<Vec2>): (r: seq<ObstacleEntry>)
    ensures |r| <= |obstacles|
    ensures forall e :: e in r ==> !e.isGoalPost && Abs(e.position.x) <= fd.xPosOpponentGoalLine && e.position in obstacles
    ensures forall ob :: ob in obstacles && Abs(ob.x) <= fd.xPosOpponentGoalLine ==> ObstacleEntry(ob, false) in r
    decreases |obstacles|
  {
    if |obstacles| == 0 then []
    else
      var rest := FieldObstacles(fd, obstacles[1..]);
      assert forall ob :: ob in obstacles[1..] ==> ob in obstacles;
      assert forall ob :: ob in obstacles ==> ob == obstacles[0] || ob in obstacles[1..];
      if Abs(obstacles[0].x) > fd.xPosOpponentGoalLine then rest
      else [ObstacleEntry(obstacles[0], false)] + rest
  }

  /** Filtering a concatenation filters each part and keeps them in order;
      with `FieldObstacleSingle` this pins down the order of the kept
      obstacles. */
  lemma {:induction false} FieldObstaclesAppend(fd: Dimensions, a: seq<Vec2>, b: seq<Vec2>)
    ensures FieldObstacles(fd, a + b) == FieldObstacles(fd, a) + FieldObstacles(fd, b)
    decreases |a|
  {
    if |a| == 0 {
      assert a + b == b;
    } else {
      var ab := a + b;
      assert ab[0] == a[0];
      assert ab[1..] == a[1..] + b;
      FieldObstaclesAppend(fd, a[1..], b);
      if Abs(a[0].x) <= fd.xPosOpponentGoalLine {
        var e := [ObstacleEntry(a[0], false)];
        assert FieldObstacles(fd, ab) == e + FieldObstacles(fd, ab[1..]);
        assert FieldObstacles(fd, a) == e + FieldObstacles(fd, a[1..]);
        assert e + (FieldObstacles(fd, a[1..]) + FieldObstacles(fd, b))
            == (e + FieldObstacles(fd, a[1..])) + FieldObstacles(fd, b);
      }
    }
  }

  /** Every kept obstacle appears as often as in the input, and nothing else
      appears: the filter neither drops nor merges duplicates, which matters
      because the obstacle potential sums one term per entry. */
  lemma {:induction false} FieldObstaclesCount(fd: Dimensions, obstacles: seq<Vec2>, e: ObstacleEntry)
    ensures multiset(FieldObstacles(fd, obstacles))[e] ==
              if !e.isGoalPost && Abs(e.position.x) <= fd.xPosOpponentGoalLine
              then multiset(obstacles)[e.position] else 0
    decreases |obstacles|
  {
    if |obstacles| > 0 {
      var head := obstacles[0];
      var rest := FieldObstacles(fd, obstacles[1..]);
      FieldObstaclesCount(fd, obstacles[1..], e);
      assert obstacles == [head] + obstacles[1..];
      assert multiset(obstacles) == multiset{head} + multiset(obstacles[1..]);
      if Abs(head.x) <= fd.xPosOpponentGoalLine {
        var kept := ObstacleEntry(head, false);
        assert FieldObstacles(fd, obstacles) == [kept] + rest;
        assert multiset(FieldObstacles(fd, obstacles)) == multiset{kept} + multiset(rest);
      } else {
        assert FieldObstacles(fd, obstacles) == rest;
      }
    }
  }

  /** A single obstacle is kept, as a non-post entry, iff its x lies within
      the field length. */
  lemma FieldObstacleSingle(fd: Dimensions, ob: Vec2)
    ensures FieldObstacles(fd, [ob]) ==
              if Abs(ob.x) <= fd.xPosOpponentGoalLine then [ObstacleEntry(ob, false)] else []
  {
    assert [ob][1..] == [];
  }

  /** Lines 313-322: the field obstacles followed by both goal posts. */
  function ObstaclesOnField(d: Derived, fd: Dimensions, obstacles: seq<Vec2>): (r: seq<ObstacleEntry>)
    ensures |r| >= 2
    ensures r[|r| - 2] == ObstacleEntry(d.leftGoalPostCenter, true)
    ensures r[|r| - 1] == ObstacleEntry(d.rightGoalPostCenter, true)
    ensures r[..|r| - 2] == FieldObstacles(fd, obstacles)
  {
    FieldObstacles(fd, obstacles) + [ObstacleEntry(d.leftGoalPostCenter, true), ObstacleEntry(d.rightGoalPostCenter, true)]
  }

  function SquaredDistance(a: Vec2, b: Vec2): real {
    SquaredNorm(Sub(a, b))
  }

  /** Lines 330-340: the squared distance from the point to the nearest of
      the robot itself (`start`) and its teammates. */
  function NearestSquaredDistance(point: Vec2, start: real, teammates: seq<Vec2>): (r: real)
    ensures r <= start
    ensures forall i :: 0 <= i < |teammates| ==> r <= SquaredDistance(teammates[i], point)
    ensures r == start || exists i :: 0 <= i < |teammates| && r == SquaredDistance(teammates[i], point)
    decreases |teammates|
  {
    if |teammates| == 0 then start
    else
      var next := SquaredDistance(teammates[0], point);
      var r := NearestSquaredDistance(point, if next < start then next else start, teammates[1..]);
      assert forall i :: 1 <= i < |teammates| ==> teammates[i] == teammates[1..][i - 1];
      r
  }

  /** What every obstacle's rating at one point shares. */
  datatype RepelContext = RepelContext(
    point: Vec2,
    squaredDistance: real,
    teammateDistance: real,
    useMaxRepelRange: real,
    radiusTimesValue: real,
    interceptedEnd: Vec2)

  /** Lines 351-353: the vector to the obstacle, nudged off zero. */
  function VectorToObstacle(position: Vec2, point: Vec2): (v: Vec2)
    ensures v != Zero
    ensures Sub(position, point) != Zero ==> v == Sub(position, point)
    ensures Sub(position, point) == Zero ==> v == Vec2(0.00001, 0.0)
  {
    var v := Sub(position, point);
    if v == Zero then Vec2(v.x + 0.00001, v.y) else v
  }

  /** Lines 366-372: the weak field behind an obstacle, seen from the
      intercepted ball position; can be negative. */
  function BehindRating(c: Config, d: Derived, ctx: RepelContext, ob: ObstacleEntry): real
    requires c.opponentBackShiftY > 0.0 && c.opponentBackRangeX > 0.0
  {
    var ie := ctx.interceptedEnd;
    var p := ob.position;
    var shiftedY := p.y + (if p.y > ie.y then c.opponentBackShiftY else -c.opponentBackShiftY);
    var dis := Abs(ctx.point.y - shiftedY);
    var maxRatingRatio := Limit01(Abs(ie.y - p.y) / c.opponentBackShiftY);
    maxRatingRatio * (c.opponentBackValue - FunctionLinear(dis, c.opponentBackRangeY, d.obstacleBackRTV))
      * Limit01(((p.x + c.opponentBackRangeX) - ie.x) / c.opponentBackRangeX)
  }

  /** Lines 351-372: one obstacle's repelling rating at the point. */
  function SingleObstacleRating(o: Oracles, c: Config, d: Derived, ctx: RepelContext, ob: ObstacleEntry): (r: real)
    requires c.opponentBackShiftY > 0.0 && c.opponentBackRangeX > 0.0
    ensures r >= 0.0
    ensures SquaredNorm(VectorToObstacle(ob.position, ctx.point)) > ctx.squaredDistance ==> r == 0.0
  {
    var vectorToOb := VectorToObstacle(ob.position, ctx.point);
    var squared := SquaredNorm(vectorToOb);
    if squared > ctx.squaredDistance then 0.0
    else
      var vectorToObNorm := o.sqrt(squared);
      var malusForOpponentTurn := Min(1.0, Max(0.0, Abs(o.angle(vectorToOb)) - Deg(60.0)) / Deg(90.0));
      var ownRadius := if ob.isGoalPost then Min(c.goalPostMaxRadius, ctx.teammateDistance) else ctx.teammateDistance;
      var realRadius := (vectorToObNorm + ownRadius) * c.selfAndOpponentShiftFactor / 2.0
                        * (1.0 - malusForOpponentTurn * c.malusForOpponentTurnFactor);
      var relativeRadius := realRadius - ctx.useMaxRepelRange;
      var realDistance := Max(0.0, vectorToObNorm - relativeRadius);
      var rating := FunctionLinear(realDistance, ctx.useMaxRepelRange, ctx.radiusTimesValue);
      var ie := ctx.interceptedEnd;
      var shiftedY := ob.position.y + (if ob.position.y > ie.y then c.opponentBackShiftY else -c.opponentBackShiftY);
      if (ctx.point.y - shiftedY) * (ie.y - shiftedY) < 0.0 && ob.position.x < ctx.point.x then
        Max(rating, BehindRating(c, d, ctx, ob))
      else rating
  }

  /** Lines 349-380: the sum over all obstacles. */
  function RepelRating(o: Oracles, c: Config, d: Derived, ctx: RepelContext, obstacles: seq<ObstacleEntry>): (r: real)
    requires c.opponentBackShiftY > 0.0 && c.opponentBackRangeX > 0.0
    ensures r >= 0.0
    ensures (forall i :: 0 <= i < |obstacles| ==>
               SquaredNorm(VectorToObstacle(obstacles[i].position, ctx.point)) > ctx.squaredDistance) ==> r == 0.0
    decreases |obstacles|
  {
    if |obstacles| == 0 then 0.0
    else
      assert forall i :: 1 <= i < |obstacles| ==> obstacles[i] == obstacles[1..][i - 1];
      SingleObstacleRating(o, c, d, ctx, obstacles[0]) + RepelRating(o, c, d, ctx, obstacles[1..])
  }

  /** a * s + (1 - a) * t lies between s and t for a in [0, 1]. */
  lemma {:induction false} ConvexCombinationPositive(a: real, s: real, t: real)
    requires 0.0 <= a <= 1.0 && s > 0.0 && t > 0.0
    ensures a * s + (1.0 - a) * t > 0.0
  {
    MulNonNegative(a, s);
    if a < 1.0 {
      MulPositive(1.0 - a, t);
    } else {
      MulPositive(a, s);
    }
  }

  /** Lines 342-348: how far the repelling kernels reach, between
      `minRepelDifferenceRange` near the goal and `maxRepelDifferenceRange`
      far from it. */
  function RepelRange(o: Oracles, c: Config, fd: Dimensions, point: Vec2): (r: real)
    requires ValidConfig(c, fd) && WellFormed(o)
    ensures r > 0.0
  {
    var toGoal := Sub(Vec2(fd.xPosOpponentGoalLine, 0.0), point);
    assert o.norm(toGoal) >= 0.0;
    QuotientBounds(o.norm(toGoal), c.opponentDistanceToGoal);
    var distanceToGoalFactor := Min(1.0, o.norm(toGoal) / c.opponentDistanceToGoal);
    ConvexCombinationPositive(distanceToGoalFactor, c.minRepelDifferenceRange, c.maxRepelDifferenceRange);
    distanceToGoalFactor * c.minRepelDifferenceRange + (1.0 - distanceToGoalFactor) * c.maxRepelDifferenceRange
  }

  /** The world as the obstacle and teammate potentials read it: obstacles
      and teammates already in field coordinates. */
  datatype Scene = Scene(
    robot: Vec2,
    obstacles: seq<Vec2>,
    teammates: seq<Vec2>,
    interceptedEnd: Vec2)

  /** `getObstaclePotential`: never negative, zero in the goal mouth. */
  function ObstaclePotential(o: Oracles, c: Config, d: Derived, fd: Dimensions, s: Scene, x: real, y: real): (v: real)
    requires ValidConfig(c, fd) && WellFormed(o)
    ensures v >= 0.0
    ensures InOpponentGoalMouth(fd, x, y) ==> v == 0.0
  {
    if InOpponentGoalMouth(fd, x, y) then 0.0
    else
      var point := Vec2(x, y);
      var squaredDistance := NearestSquaredDistance(point, SquaredDistance(s.robot, point), s.teammates);
      var useMaxRepelRange := RepelRange(o, c, fd, point);
      var ctx := RepelContext(point, squaredDistance, o.sqrt(squaredDistance), useMaxRepelRange,
                              1.0 / useMaxRepelRange * c.repelValue, s.interceptedEnd);
      RepelRating(o, c, d, ctx, ObstaclesOnField(d, fd, s.obstacles))
  }

  /** When every obstacle and both posts are farther from the point than the
      robot or one of its teammates, no obstacle repels. */
  lemma {:induction false} ObstaclesBehindTeammatesIgnored(o: Oracles, c: Config, d: Derived, fd: Dimensions, s: Scene, x: real, y: real)
    requires ValidConfig(c, fd) && WellFormed(o)
    requires !InOpponentGoalMouth(fd, x, y)
    requires forall e :: e in ObstaclesOnField(d, fd, s.obstacles) ==>
               SquaredNorm(VectorToObstacle(e.position, Vec2(x, y)))
                 > NearestSquaredDistance(Vec2(x, y), SquaredDistance(s.robot, Vec2(x, y)), s.teammates)
    ensures ObstaclePotential(o, c, d, fd, s, x, y) == 0.0
  {
    var entries := ObstaclesOnField(d, fd, s.obstacles);
    assert forall i :: 0 <= i < |entries| ==> entries[i] in entries;
  }

  // ---------------------------------------------------------------------
  // Lines 447-535: teammates

  /** Lines 481-482: the intercepted ball position, moved forward to at
      least the own goal area. */
  function ClippedBall(d: Derived, interceptedEnd: Vec2): (b: Vec2)
    ensures b.y == interceptedEnd.y
    ensures b.x >= interceptedEnd.x && b.x >= d.minXCoordinateForPass
    ensures b.x == interceptedEnd.x || b.x == d.minXCoordinateForPass
  {
    Vec2(Max(interceptedEnd.x, d.minXCoordinateForPass), interceptedEnd.y)
  }

  /** Line 470: the spot `bestRelativePose` in front of a teammate, towards
      the goal. */
  function OffsetToGoal(o: Oracles, c: Config, fd: Dimensions, position: Vec2): Vec2 {
    Add(position, o.polar(c.bestRelativePose, o.angle(Sub(Vec2(fd.xPosOpponentGoalLine, 0.0), position))))
  }

  /** Line 471: how far beyond the minimum pass distance a teammate is from
      the ball, in [0, 1]. */
  function RangeInterpolation(o: Oracles, c: Config, position: Vec2, clippedBall: Vec2): (r: real)
    requires c.maxTeammatePassDistance > 0.0
    ensures 0.0 <= r <= 1.0
    ensures o.norm(Sub(position, clippedBall)) <= c.minTeammatePassDistance ==> r == 0.0
  {
    var excess := Max(0.0, o.norm(Sub(position, clippedBall)) - c.minTeammatePassDistance);
    QuotientBounds(excess, c.maxTeammatePassDistance);
    Min(1.0, excess / c.maxTeammatePassDistance)
  }

  /** Lines 508-511: the logistic fall-off of a teammate's attraction. */
  function SigmoidRating(o: Oracles, targetDistance: real, refRange: real, rating: real): (r: real)
    requires refRange > 0.0 && WellFormed(o)
    ensures rating >= 0.0 ==> 0.0 <= r <= rating
  {
    var e := o.exp(4.0 * (targetDistance - refRange) / refRange);
    assert e >= 0.0;
    QuotientBounds(1.0, 1.0 + e);
    var share := 1.0 / (1.0 + e);
    ShareOfRating(share, rating);
    share * rating
  }

  /** A share in [0, 1] of a non-negative rating lies in [0, rating]. */
  lemma ShareOfRating(share: real, rating: real)
    ensures (0.0 <= share <= 1.0 && rating >= 0.0) ==> 0.0 <= share * rating <= rating
  {
    if 0.0 <= share <= 1.0 && rating >= 0.0 {
      MulNonNegative(share, rating);
      MulNonNegative(1.0 - share, rating);
    }
  }

  /** What one teammate contributes before the scaling: the sigmoid
      attraction of its spot in front of it, and the two pass factors. */
  datatype TeammateTerms = TeammateTerms(sigmoid: real, distanceChangeFactor: real, kickFactor: real)

  /** Lines 500-522: the sigmoid of the distance to the teammate's spot, the
      gain of the pass over the ball's distance to the teammate mapped from
      [0, 500] to [0, 1], and the kick distance mapped from the pass distance
      range to [0, 1]. */
  function Terms(o: Oracles, c: Config, fd: Dimensions, clippedBall: Vec2, position: Vec2, point: Vec2): (t: TeammateTerms)
    requires ValidConfig(c, fd) && WellFormed(o)
    ensures c.passTargetValue >= 0.0 ==> 0.0 <= t.sigmoid <= c.passTargetValue
    ensures MapsIntoUnit(o) ==> 0.0 <= t.distanceChangeFactor <= 1.0 && 0.0 <= t.kickFactor <= 1.0
  {
    var poseVector := Sub(OffsetToGoal(o, c, fd, position), point);
    var poseVector' := if poseVector == Zero then Vec2(poseVector.x + 0.000001, poseVector.y) else poseVector;
    var kickDistance := o.norm(Sub(clippedBall, point));
    var ballDistanceToTeammateChange := o.norm(Sub(clippedBall, position)) - o.norm(Sub(position, point));
    TeammateTerms(
      SigmoidRating(o, o.norm(poseVector'), c.passAttractRange, c.passTargetValue),
      o.mapToRange(ballDistanceToTeammateChange, 0.0, 500.0, 0.0, 1.0),
      o.mapToRange(kickDistance, c.minTeammatePassDistance, c.maxTeammatePassDistance, 0.0, 1.0))
  }

  /** Lines 500-527: one teammate's (attracting, so non-positive) rating. */
  function TeammateRating(o: Oracles, c: Config, fd: Dimensions, clippedBall: Vec2, position: Vec2,
                          point: Vec2, ownHalfInterpolation: real): (r: real)
    requires ValidConfig(c, fd) && WellFormed(o)
    ensures (MapsIntoUnit(o) && c.passTargetValue >= 0.0 && 0.0 <= ownHalfInterpolation <= 1.0) ==>
              -c.passTargetValue <= r <= 0.0
  {
    var t := Terms(o, c, fd, clippedBall, position, point);
    Attraction(t.sigmoid, ownHalfInterpolation, PassScale(t.distanceChangeFactor, t.kickFactor))
  }

  /** Line 523: how much of an attraction survives, from 1/2 (no gain on the
      teammate or a short pass) to 1. */
  function PassScale(distanceChangeFactor: real, kickFactor: real): (s: real)
    ensures (0.0 <= distanceChangeFactor <= 1.0 && 0.0 <= kickFactor <= 1.0) ==> 0.5 <= s <= 1.0
    ensures distanceChangeFactor == 0.0 || kickFactor == 0.0 ==> s == 0.5
  {
    ProductOfUnits(distanceChangeFactor, kickFactor);
    0.5 + distanceChangeFactor * 0.5 * kickFactor
  }

  /** Lines 512-526: the sigmoid attraction scaled down in the own half and,
      when it attracts at all, by the pass scale. With the own-half factor in
      [0, 1] and the scale at most 1 it stays in [-sigmoid, 0]. */
  function Attraction(sigmoid: real, ownHalf: real, scale: real): (r: real)
    ensures (0.0 <= sigmoid && 0.0 <= ownHalf <= 1.0 && 0.0 <= scale <= 1.0) ==> -sigmoid <= r <= 0.0
    ensures sigmoid * ownHalf <= 0.0 ==> r == -(sigmoid * ownHalf)
    ensures sigmoid * ownHalf > 0.0 && scale > 0.0 ==> r < 0.0
  {
    ScaledAttraction(sigmoid, ownHalf, scale);
    if sigmoid * ownHalf > 0.0 then -(sigmoid * ownHalf * scale) else -(sigmoid * ownHalf)
  }

  /** The bound behind `Attraction`: the own-half share of the sigmoid and
      its scaled version both lie in [0, sigmoid]. */
  lemma {:induction false} ScaledAttraction(sigmoid: real, ownHalf: real, scale: real)
    ensures (0.0 <= sigmoid && 0.0 <= ownHalf <= 1.0 && 0.0 <= scale <= 1.0) ==>
              0.0 <= sigmoid * ownHalf <= sigmoid && 0.0 <= sigmoid * ownHalf * scale <= sigmoid
    ensures sigmoid * ownHalf > 0.0 && scale > 0.0 ==> sigmoid * ownHalf * scale > 0.0
  {
    if 0.0 <= sigmoid && 0.0 <= ownHalf <= 1.0 && 0.0 <= scale <= 1.0 {
      MulNonNegative(sigmoid, ownHalf);
      MulNonNegative(sigmoid, 1.0 - ownHalf);
      assert sigmoid * (1.0 - ownHalf) == sigmoid - sigmoid * ownHalf;
      MulNonNegative(sigmoid * ownHalf, scale);
      MulNonNegative(sigmoid * ownHalf, 1.0 - scale);
      assert sigmoid * ownHalf * (1.0 - scale) == sigmoid * ownHalf - sigmoid * ownHalf * scale;
    }
    if sigmoid * ownHalf > 0.0 && scale > 0.0 {
      MulPositive(sigmoid * ownHalf, scale);
    }
  }

  /** Lines 493-533: every teammate's rating at the point, in teammate order. */
  function TeammateRatings(o: Oracles, c: Config, fd: Dimensions, clippedBall: Vec2, teammates: seq<Vec2>,
                           point: Vec2, ownHalfInterpolation: real): (rs: seq<real>)
    requires ValidConfig(c, fd) && WellFormed(o)
    ensures |rs| == |teammates|
    ensures forall i :: 0 <= i < |teammates| ==>
              rs[i] == TeammateRating(o, c, fd, clippedBall, teammates[i], point, ownHalfInterpolation)
    ensures (MapsIntoUnit(o) && c.passTargetValue >= 0.0 && 0.0 <= ownHalfInterpolation <= 1.0) ==>
              forall i :: 0 <= i < |rs| ==> -c.passTargetValue <= rs[i] <= 0.0
  {
    seq(|teammates|, i requires 0 <= i < |teammates| =>
          TeammateRating(o, c, fd, clippedBall, teammates[i], point, ownHalfInterpolation))
  }

  function Sum(xs: seq<real>): real {
    if |xs| == 0 then 0.0 else xs[0] + Sum(xs[1..])
  }

  /** n copies of p added up, that is n * p, without a product the solver
      would have to reason about. */
  function Times(n: nat, p: real): (r: real)
    ensures p >= 0.0 ==> r >= 0.0
  {
    if n == 0 then 0.0 else p + Times(n - 1, p)
  }

  /** `Times` is the product. */
  lemma {:induction false} TimesIsProduct(n: nat, p: real)
    ensures Times(n, p) == (n as real) * p
  {
    if n > 0 {
      TimesIsProduct(n - 1, p);
      assert (n as real) * p == ((n - 1) as real) * p + p;
    }
  }

  /** A sum of n terms in [-p, 0] lies in [-n * p, 0]. */
  lemma {:induction false} SumBounded(xs: seq<real>, p: real)
    ensures (forall i :: 0 <= i < |xs| ==> -p <= xs[i] <= 0.0) ==> -Times(|xs|, p) <= Sum(xs) <= 0.0
  {
    if |xs| > 0 && forall i :: 0 <= i < |xs| ==> -p <= xs[i] <= 0.0 {
      assert forall i :: 0 <= i < |xs[1..]| ==> xs[1..][i] == xs[i + 1];
      SumBounded(xs[1..], p);
    }
  }

  /** Lines 490-533 outside the goal mouth: the sum of the teammates'
      ratings, the own-half interpolation mapping x from the goal-area line
      over two interpolation zones to [0, 1]. */
  function TeammatesSum(o: Oracles, c: Config, d: Derived, fd: Dimensions, s: Scene, x: real, y: real): (v: real)
    requires ValidConfig(c, fd) && WellFormed(o)
    ensures (MapsIntoUnit(o) && c.passTargetValue >= 0.0) ==> -Times(|s.teammates|, c.passTargetValue) <= v <= 0.0
  {
    var ownHalfInterpolation := o.mapToRange(x, d.minXCoordinateForPass,
                                             d.minXCoordinateForPass + 2.0 * c.interpolationZoneInOwnHalf, 0.0, 1.0);
    var ratings := TeammateRatings(o, c, fd, ClippedBall(d, s.interceptedEnd), s.teammates, Vec2(x, y), ownHalfInterpolation);
    SumBounded(ratings, c.passTargetValue);
    Sum(ratings)
  }

  /** `getTeammatesPotential`: zero in the goal mouth; attracting (never
      positive) and at most `passTargetValue` per teammate, so never below
      |teammates| * passTargetValue (see `TimesIsProduct`). */
  function TeammatesPotential(o: Oracles, c: Config, d: Derived, fd: Dimensions, s: Scene, x: real, y: real): (v: real)
    requires ValidConfig(c, fd) && WellFormed(o)
    ensures InOpponentGoalMouth(fd, x, y) ==> v == 0.0
    ensures (MapsIntoUnit(o) && c.passTargetValue >= 0.0) ==> -Times(|s.teammates|, c.passTargetValue) <= v <= 0.0
  {
    if InOpponentGoalMouth(fd, x, y) then 0.0
    else TeammatesSum(o, c, d, fd, s, x, y)
  }

  // ---------------------------------------------------------------------
  // Lines 537-578: the ball-near sector

  /** Line 545: the angle between the ball-to-point and ball-to-goal directions. */
  function BallAngle(o: Oracles, fd: Dimensions, interceptedEnd: Vec2, point: Vec2): real {
    var vectorToGoal := Sub(Vec2(fd.xPosOpponentGoalLine, 0.0), interceptedEnd);
    var ballVector := Sub(point, interceptedEnd);
    Abs(o.angle(ballVector) - o.angle(vectorToGoal))
  }

  /** Lines 548-565: inside the sector, the best distance band rates
      -ballRating / 2, elsewhere the rating rises linearly towards
      ballRating / 2. */
  function SectorRating(o: Oracles, c: Config, d: Derived, interceptedEnd: Vec2, point: Vec2): real {
    var ballVectorLength := o.norm(Sub(point, interceptedEnd));
    if d.bestBallPositionRange.IsInside(ballVectorLength) then -c.ballRating / 2.0
    else
      var useBestDistanceForBall :=
        if d.bestBallPositionRange.min > ballVectorLength then d.bestBallPositionRange.min
        else d.bestBallPositionRange.max;
      var ballNearRating := c.ballRating - FunctionLinear(Abs(useBestDistanceForBall - ballVectorLength), c.ballRange, d.ballRTV);
      ballNearRating - c.ballRating / 2.0
  }

  /** Lines 567-573: within `ballGoalSectorBorderWidth` of the sector's edge
      the value is blended towards ballRating / 2, reaching it at the edge, so
      the potential is continuous where the sector ends. */
  function BorderBlend(c: Config, ballAngle: real, value: real): (r: real)
    requires c.ballGoalSectorBorderWidth > 0.0
    ensures ballAngle <= c.ballGoalSectorWidth - c.ballGoalSectorBorderWidth ==> r == value
    ensures ballAngle >= c.ballGoalSectorWidth ==> r == c.ballRating / 2.0
    ensures -(c.ballRating / 2.0) <= value <= c.ballRating / 2.0 ==>
              -(c.ballRating / 2.0) <= r <= c.ballRating / 2.0
  {
    var reduceRatingAtMinAngle := c.ballGoalSectorWidth - c.ballGoalSectorBorderWidth;
    if ballAngle > reduceRatingAtMinAngle then
      var factor := Limit01((ballAngle - reduceRatingAtMinAngle) / c.ballGoalSectorBorderWidth);
      BlendBounded(c.ballRating / 2.0, value, factor);
      QuotientBounds(ballAngle - reduceRatingAtMinAngle, c.ballGoalSectorBorderWidth);
      c.ballRating / 2.0 * factor + value * (1.0 - factor)
    else value
  }

  /** Blending a value of [-h, h] towards h stays in [-h, h]. */
  lemma {:induction false} BlendBounded(h: real, value: real, factor: real)
    ensures (0.0 <= factor <= 1.0 && -h <= value <= h) ==> -h <= h * factor + value * (1.0 - factor) <= h
  {
    if 0.0 <= factor <= 1.0 && -h <= value <= h {
      LerpBetween(value, h, factor);
      assert h * factor + value * (1.0 - factor) == value + factor * (h - value);
    }
  }

  /** `getBallNearPotential`: zero in the goal mouth, ballRating / 2 outside
      the ball-goal sector, the sector rating blended at its border inside. */
  function BallNearPotential(o: Oracles, c: Config, d: Derived, fd: Dimensions, interceptedEnd: Vec2, x: real, y: real): (v: real)
    requires ValidConfig(c, fd)
    ensures InOpponentGoalMouth(fd, x, y) ==> v == 0.0
    ensures (!InOpponentGoalMouth(fd, x, y) && BallAngle(o, fd, interceptedEnd, Vec2(x, y)) >= c.ballGoalSectorWidth) ==>
              v == c.ballRating / 2.0
  {
    if InOpponentGoalMouth(fd, x, y) then 0.0
    else
      var point := Vec2(x, y);
      var ballAngle := BallAngle(o, fd, interceptedEnd, point);
      if ballAngle < c.ballGoalSectorWidth then BorderBlend(c, ballAngle, SectorRating(o, c, d, interceptedEnd, point))
      else c.ballRating / 2.0
  }

  /** With the derived slope and a non-negative rating, the ball-near
      potential stays within [-ballRating / 2, ballRating / 2]. */
  lemma {:induction false} BallNearBounded(o: Oracles, c: Config, fd: Dimensions, interceptedEnd: Vec2, x: real, y: real)
    requires ValidConfig(c, fd) && c.ballRating >= 0.0
    ensures -(c.ballRating / 2.0) <= BallNearPotential(o, c, Derive(c, fd), fd, interceptedEnd, x, y) <= c.ballRating / 2.0
  {
    if !InOpponentGoalMouth(fd, x, y) {
      SectorRatingBounded(o, c, fd, interceptedEnd, Vec2(x, y));
    }
  }

  lemma {:induction false} SectorRatingBounded(o: Oracles, c: Config, fd: Dimensions, interceptedEnd: Vec2, point: Vec2)
    requires ValidConfig(c, fd) && c.ballRating >= 0.0
    ensures -(c.ballRating / 2.0) <= SectorRating(o, c, Derive(c, fd), interceptedEnd, point) <= c.ballRating / 2.0
  {
    var d := Derive(c, fd);
    var ballVectorLength := o.norm(Sub(point, interceptedEnd));
    if !d.bestBallPositionRange.IsInside(ballVectorLength) {
      var useBestDistanceForBall :=
        if d.bestBallPositionRange.min > ballVectorLength then d.bestBallPositionRange.min
        else d.bestBallPositionRange.max;
      assert d.ballRTV == c.ballRating / c.ballRange;
      FunctionLinearPeak(Abs(useBestDistanceForBall - ballVectorLength), c.ballRange, c.ballRating);
    }
  }

  // ---------------------------------------------------------------------
  // Lines 82-86: teammate area versus ball-near

  /** `removeBallNearFromTeammatePotential`: inside a teammate's area
      (negative value) a positive ball-near value is subtracted, making the
      area even more attractive; elsewhere nothing changes. */
  function RemoveBallNearFromTeammatePotential(value: real, ballNear: real): (r: real)
    ensures value >= 0.0 ==> r == value
    ensures r <= value
    ensures r < 0.0 <==> value < 0.0
    ensures value < 0.0 && ballNear <= 0.0 ==> r == value
  {
    if value < 0.0 then value - Max(0.0, ballNear) else value
  }

  // ---------------------------------------------------------------------
  // Lines 580-602: pass targets

  /** Line 591: whether a teammate is a pass candidate at all. */
  predicate Candidate(o: Oracles, c: Config, d: Derived, clippedBall: Vec2, position: Vec2)
    requires c.maxTeammatePassDistance > 0.0
  {
    && RangeInterpolation(o, c, position, clippedBall) != 0.0
    && position.x >= d.minXCoordinateForPass
    && position.x >= clippedBall.x - (c.teammateAttractRangeMin + c.bestRelativePose)
  }

  /** Line 594: the pass target in front of a teammate, at least 300 mm ahead
      of the ball. */
  function PassTarget(c: Config, clippedBall: Vec2, position: Vec2): (t: Vec2)
    ensures t.y == position.y
    ensures t.x >= clippedBall.x + 300.0 && t.x >= position.x + c.bestRelativePose
    ensures t.x == clippedBall.x + 300.0 || t.x == position.x + c.bestRelativePose
  {
    Vec2(Max(clippedBall.x + 300.0, position.x + c.bestRelativePose), position.y)
  }

  /** Lines 591-598: a teammate yields a pass target when it is a candidate
      and the target is far enough from the ball compared with the teammate. */
  predicate Keeps(o: Oracles, c: Config, d: Derived, clippedBall: Vec2, position: Vec2)
    requires c.maxTeammatePassDistance > 0.0
  {
    var target := PassTarget(c, clippedBall, position);
    && Candidate(o, c, d, clippedBall, position)
    && o.norm(Sub(target, clippedBall)) - o.norm(Sub(target, position)) >= c.minTeammatePassDistance
  }

  /** `getPossiblePassTargets`: at most one target per teammate, in teammate
      order; `sources[j]` is the teammate target `j` belongs to. */
  method PossiblePassTargets(o: Oracles, c: Config, d: Derived, teammates: seq<Vec2>, interceptedEnd: Vec2)
    returns (targets: seq<Vec2>, sources: seq<nat>)
    requires c.maxTeammatePassDistance > 0.0
    ensures |targets| == |sources| <= |teammates|
    ensures forall j :: 0 <= j < |sources| ==> sources[j] < |teammates|
    ensures forall j, k :: 0 <= j < k < |sources| ==> sources[j] < sources[k]
    ensures forall j :: 0 <= j < |sources| ==>
              targets[j] == PassTarget(c, ClippedBall(d, interceptedEnd), teammates[sources[j]])
    ensures forall i :: 0 <= i < |teammates| ==>
              (i in sources <==> Keeps(o, c, d, ClippedBall(d, interceptedEnd), teammates[i]))
  {
    var clipped := ClippedBall(d, interceptedEnd);
    targets := [];
    sources := [];
    var index := 0;
    while index < |teammates|
      invariant 0 <= index <= |teammates|
      invariant |targets| == |sources| <= index
      invariant forall j :: 0 <= j < |sources| ==> sources[j] < index
      invariant forall j, k :: 0 <= j < k < |sources| ==> sources[j] < sources[k]
      invariant forall j :: 0 <= j < |sources| ==> targets[j] == PassTarget(c, clipped, teammates[sources[j]])
      invariant forall i :: 0 <= i < index ==> (i in sources <==> Keeps(o, c, d, clipped, teammates[i]))
    {
      var position := teammates[index];
      if Keeps(o, c, d, clipped, position) {
        targets := targets + [PassTarget(c, clipped, position)];
        sources := sources + [index];
      }
      index := index + 1;
    }
  }
}

=== FILE: fieldratingkernels.dfy ===
/** The two rating kernels of `FieldRatingProviderSAC` and the derived
    parameters its constructor and `updateParameters` compute from the
    configuration. A "radius times value" (RTV) is the slope of a linear kernel:
    value / range, so that the kernel reaches the configured value at distance
    0 and falls to 0 at the range. */
module FieldRatingKernels {

  import opened MathTools
  import opened FieldDimensions

  /** `functionLinear`: (radius - distance) * radiusTimesValue, never below 0. */
  function FunctionLinear(distance: real, radius: real, radiusTimesValue: real): (r: real)
    ensures r >= 0.0
    ensures distance >= radius && radiusTimesValue >= 0.0 ==> r == 0.0
    ensures distance <= radius && radiusTimesValue >= 0.0 ==> r == (radius - distance) * radiusTimesValue
    ensures distance <= radius && radiusTimesValue <= 0.0 ==> r == 0.0
  {
    ProductSigns(radius - distance, radiusTimesValue);
    Max((radius - distance) * radiusTimesValue, 0.0)
  }

  /** The sign of a product from the signs of its factors. */
  lemma ProductSigns(a: real, b: real)
    ensures a >= 0.0 && b >= 0.0 ==> a * b >= 0.0
    ensures a <= 0.0 && b >= 0.0 ==> a * b <= 0.0
    ensures a >= 0.0 && b <= 0.0 ==> a * b <= 0.0
  {
    if a >= 0.0 && b >= 0.0 {
      MulNonNegative(a, b);
    }
    if a <= 0.0 && b >= 0.0 {
      MulNonNegative(-a, b);
    }
    if a >= 0.0 && b <= 0.0 {
      MulNonNegative(a, -b);
    }
  }

  /** With a non-negative slope the linear kernel never grows with distance. */
  lemma {:induction false} FunctionLinearMonotone(d1: real, d2: real, radius: real, rtv: real)
    requires d1 <= d2 && rtv >= 0.0
    ensures FunctionLinear(d1, radius, rtv) >= FunctionLinear(d2, radius, rtv)
  {
    if d2 <= radius {
      MulNonNegative(d2 - d1, rtv);
      assert (radius - d1) * rtv == (radius - d2) * rtv + (d2 - d1) * rtv;
    }
  }

  /** A kernel with the slope value / radius is exactly `value` at distance 0
      and, for non-negative values, never exceeds it at any distance >= 0. */
  lemma {:induction false} FunctionLinearPeak(distance: real, radius: real, value: real)
    requires radius > 0.0 && value >= 0.0 && distance >= 0.0
    ensures FunctionLinear(0.0, radius, value / radius) == value
    ensures FunctionLinear(distance, radius, value / radius) <= value
  {
    var rtv := value / radius;
    assert radius * rtv == value;
    QuotientBounds(value, radius);
    FunctionLinearMonotone(0.0, distance, radius, rtv);
  }

  /** `functionCone`: 0 outside the cone (too far or too wide), otherwise the
      mean of a linear fall-off in angle and in distance, never below 0. */
  function FunctionCone(distance: real, dribbleAngle: real, maxAngle: real, radius: real, value: real): (r: real)
    requires radius != 0.0 && maxAngle != 0.0
    ensures r >= 0.0
    ensures distance > radius || dribbleAngle > maxAngle ==> r == 0.0
  {
    if distance > radius || dribbleAngle > maxAngle then 0.0
    else Max(0.5 * (1.0 - dribbleAngle / maxAngle) * value + 0.5 * (1.0 - distance / radius) * value, 0.0)
  }

  /** At the tip of the cone the kernel is the value; inside a proper cone it
      lies in [0, value]. */
  lemma {:induction false} FunctionConeBounded(distance: real, dribbleAngle: real, maxAngle: real, radius: real, value: real)
    requires radius > 0.0 && maxAngle > 0.0 && value >= 0.0
    requires distance >= 0.0 && dribbleAngle >= 0.0
    ensures FunctionCone(0.0, 0.0, maxAngle, radius, value) == value
    ensures FunctionCone(distance, dribbleAngle, maxAngle, radius, value) <= value
  {
    if !(distance > radius || dribbleAngle > maxAngle) {
      var a := dribbleAngle / maxAngle;
      var d := distance / radius;
      QuotientBounds(dribbleAngle, maxAngle);
      QuotientBounds(distance, radius);
      MulNonNegative(a, value);
      MulNonNegative(d, value);
      assert 0.5 * (1.0 - a) * value + 0.5 * (1.0 - d) * value == value - 0.5 * (a * value) - 0.5 * (d * value);
    }
  }

  /** The configuration of the provider that the value channel reads. */
  datatype Config = Config(
    fieldBorderValue: real,
    fieldBorderRange: real,
    passTargetValue: real,
    passAttractRange: real,
    betterGoalAngleValue: real,
    ballRating: real,
    ballRange: real,
    opponentBackRangeY: real,
    opponentBackValue: real,
    opponentBackRangeX: real,
    opponentBackShiftY: real,
    bestDistanceForBall: real,
    bestDistanceWidth: real,
    repelValue: real,
    minRepelDifferenceRange: real,
    maxRepelDifferenceRange: real,
    opponentDistanceToGoal: real,
    goalPostMaxRadius: real,
    selfAndOpponentShiftFactor: real,
    malusForOpponentTurnFactor: real,
    interpolationZoneInOwnHalf: real,
    minTeammatePassDistance: real,
    maxTeammatePassDistance: real,
    bestRelativePose: real,
    teammateAttractRangeMin: real,
    ballGoalSectorWidth: real,
    ballGoalSectorBorderWidth: real)

  /** Every range the provider divides by is positive. */
  predicate ValidConfig(c: Config, fd: Dimensions) {
    && c.fieldBorderRange > 0.0
    && c.passAttractRange > 0.0
    && c.ballRange > 0.0
    && c.opponentBackRangeY > 0.0
    && c.opponentBackRangeX > 0.0
    && c.opponentBackShiftY > 0.0
    && c.minRepelDifferenceRange > 0.0
    && c.maxRepelDifferenceRange > 0.0
    && c.opponentDistanceToGoal > 0.0
    && c.maxTeammatePassDistance > 0.0
    && c.ballGoalSectorBorderWidth > 0.0
    && fd.xPosOpponentGoalLine > fd.xPosOpponentPenaltyArea
  }

  /** The values the constructor and `updateParameters` derive. */
  datatype Derived = Derived(
    betterGoalAngleRange: real,
    rightInnerGoalPostY: real,
    leftInnerGoalPostY: real,
    leftGoalPostCenter: Vec2,
    rightGoalPostCenter: Vec2,
    fieldBorderRTV: real,
    passRTV: real,
    betterGoalAngleRTV: real,
    ballRTV: real,
    obstacleBackRTV: real,
    bestBallPositionRange: Range,
    minXCoordinateForPass: real)

  /** Lines 11-51. Every slope is its value spread over its range, so each
      linear kernel starts at its configured value. */
  function Derive(c: Config, fd: Dimensions): (d: Derived)
    requires ValidConfig(c, fd)
    ensures d.betterGoalAngleRange > 0.0
    ensures d.fieldBorderRTV * c.fieldBorderRange == c.fieldBorderValue
    ensures d.passRTV * c.passAttractRange == c.passTargetValue
    ensures d.betterGoalAngleRTV * d.betterGoalAngleRange == c.betterGoalAngleValue
    ensures d.ballRTV * c.ballRange == c.ballRating
    ensures d.obstacleBackRTV * c.opponentBackRangeY == c.opponentBackValue
    ensures d.bestBallPositionRange.min <= d.bestBallPositionRange.max <==> c.bestDistanceWidth >= 0.0
    ensures d.bestBallPositionRange.min + d.bestBallPositionRange.max == 2.0 * c.bestDistanceForBall
    ensures d.leftInnerGoalPostY == fd.yPosLeftGoal - fd.goalPostRadius
    ensures d.rightInnerGoalPostY == fd.yPosRightGoal + fd.goalPostRadius
    ensures d.minXCoordinateForPass == fd.xPosOwnGoalArea
  {
    var betterGoalAngleRange := fd.xPosOpponentGoalLine - fd.xPosOpponentPenaltyArea;
    Derived(
      betterGoalAngleRange,
      fd.yPosRightGoal + fd.goalPostRadius,
      fd.yPosLeftGoal - fd.goalPostRadius,
      Vec2(fd.xPosOpponentGoalLine, fd.yPosLeftGoal),
      Vec2(fd.xPosOpponentGoalLine, fd.yPosRightGoal),
      c.fieldBorderValue / c.fieldBorderRange,
      c.passTargetValue / c.passAttractRange,
      c.betterGoalAngleValue / betterGoalAngleRange,
      c.ballRating / c.ballRange,
      1.0 / c.opponentBackRangeY * c.opponentBackValue,
      Range(c.bestDistanceForBall - c.bestDistanceWidth, c.bestDistanceForBall + c.bestDistanceWidth),
      fd.xPosOwnGoalArea)
  }
}

=== FILE: fsrcalibration.dfy ===
/** The foot pressure (FSR) calibration of `FsrDataProvider`: per leg and per
    sensor it clips the measured weight, subtracts a calibrated offset, tracks
    all-time and windowed maxima and minima, publishes ratios and "last had
    pressure" timestamps, counts support switches while walking, and after
    enough switches recalibrates the offsets and the minimum foot pressure.

    The provider and its published `FsrData` form one immutable `State` that a
    pure `Step` advances by one frame. Timestamps are integers; the simulator
    check (`SystemCall::getMode`), the motion and foot-support representations
    and the current frame's readings arrive in a `Frame`; `mapToRange` is a
    function value whose internals are not modelled. */
module FsrCalibration {

  import opened MathTools

  /** `FsrSensors::FsrSensor`: front left, front right, back left, back right. */
  datatype Sensor = FL | FR | BL | BR

  /** One value per FSR sensor of a foot. */
  datatype Quad<T> = Quad(fl: T, fr: T, bl: T, br: T) {
    function At(s: Sensor): T {
      match s
      case FL => fl
      case FR => fr
      case BL => bl
      case BR => br
    }
  }

  /** `Legs::Leg`. */
  datatype Leg = Left | Right

  /** One value per leg. */
  datatype PerLeg<T> = PerLeg(left: T, right: T) {
    function At(l: Leg): T {
      match l
      case Left => left
      case Right => right
    }
  }

  /** A raw sensor value; `Off` is the `SensorData::off` marker. */
  datatype Reading = Off | Measured(value: real)

  /** The result of a float division: a positive value over zero is infinite. */
  datatype Quotient = Finite(value: real) | Infinite

  function Divide(a: real, b: real): (q: Quotient)
    ensures b != 0.0 ==> q == Finite(a / b)
    ensures b == 0.0 ==> q == Infinite
  {
    if b == 0.0 then Infinite else Finite(a / b)
  }

  /** The module's parameters. */
  datatype Config = Config(
    maxPressure: real,
    minPressureRange: Range,
    minPressureInterpolationValues: Range,
    badMinPressureTimewindow: Range,
    minSingleFSRPressureForPredictedSwitchFactor: real,
    numOfSupportSwitches: int,
    minTimeBetweenSupportSwitches: int,
    maxTimeBetweenSupportSwitches: int,
    highestPressureUpdateTime: int,
    maxTimeLegNoPressureForCalibration: int)

  /** Parameter values under which every division of `update` is defined. */
  predicate ValidConfig(c: Config) {
    && c.maxPressure >= 0.0
    && 0.0 < c.minPressureRange.min <= c.minPressureRange.max
    && c.minPressureInterpolationValues.min < c.minPressureInterpolationValues.max
    && c.numOfSupportSwitches >= 1
  }

  /** Per sensor: all-time and windowed maxima, windowed minimum, offset. */
  datatype SensorTrack = SensorTrack(highest: real, newHighest: real, newLowest: real, lowest: real)

  /** Per leg: the sensors, all-time and windowed maxima of the summed
      pressure, and the last time the leg had pressure. */
  datatype LegTrack = LegTrack(
    sensors: Quad<SensorTrack>,
    highestSum: real,
    newHighestSum: real,
    originalHasPressure: int)

  /** The provider's own members. */
  datatype Provider = Provider(
    legs: PerLeg<LegTrack>,
    maxFootPressureCurrent: real,
    maxFootSumPressure: real,
    minPressure: Range,
    minPressurePercent: Quotient,
    isCalibrated: bool,
    updatePressureTimestamp: int,
    lastSupportSwitch: int,
    supportSwitchCounter: int)

  /** `FsrData::LegInfo`. */
  datatype LegInfo = LegInfo(
    totals: real,
    hasPressure: int,
    hasPressureSince: int,
    backwardPressure: int,
    forwardPressure: int,
    leftPressure: int,
    rightPressure: int,
    sagittalRatio: real,
    lateralRatio: real)

  /** The published representation; it persists from frame to frame. */
  datatype FsrData = FsrData(
    isCalibrated: bool,
    minPressure: Quotient,
    pressures: PerLeg<Quad<real>>,
    legInfo: PerLeg<LegInfo>,
    lastUpdateTimestamp: int)

  datatype State = State(provider: Provider, data: FsrData)

  /** One frame's inputs: `theFrameInfo.time`, the raw readings,
      `theMotionInfo.isMotion(walk)`, `executedPhase == walk`,
      `theFootSupport.switched` and whether this is a simulated robot. */
  datatype Frame = Frame(
    time: int,
    readings: PerLeg<Quad<Reading>>,
    isWalking: bool,
    executedWalk: bool,
    switched: bool,
    simulatedRobot: bool)

  type MapToRange = (real, real, real, real, real) -> real

  // ---------------------------------------------------------------------
  // Well-formedness of the trackers

  ghost predicate SensorTrackOk(t: SensorTrack) {
    t.highest > 0.0 && t.newHighest > 0.0 && t.newLowest >= 0.0 && t.lowest >= 0.0
  }

  ghost predicate QuadOk(q: Quad<SensorTrack>) {
    SensorTrackOk(q.fl) && SensorTrackOk(q.fr) && SensorTrackOk(q.bl) && SensorTrackOk(q.br)
  }

  ghost predicate LegTrackOk(t: LegTrack) {
    QuadOk(t.sensors) && t.highestSum > 0.0 && t.newHighestSum > 0.0
  }

  /** What every reachable state satisfies: offsets and windowed minima are
      non-negative, every maximum used as a divisor is positive, the
      accumulators and the switch counter are non-negative. */
  ghost predicate Inv(s: State) {
    var p := s.provider;
    && LegTrackOk(p.legs.left)
    && LegTrackOk(p.legs.right)
    && p.minPressure.max > 0.0
    && p.maxFootPressureCurrent >= 0.0
    && p.maxFootSumPressure >= 0.0
    && p.supportSwitchCounter >= 0
  }

  // ---------------------------------------------------------------------
  // Construction

  function InitialLeg(c: Config, minPressureMax: real): LegTrack {
    var t := SensorTrack(minPressureMax, minPressureMax, c.maxPressure, 0.0);
    LegTrack(Quad(t, t, t, t), minPressureMax, minPressureMax, 0)
  }

  /** The constructor: maxima start at `minPressure.max`, windowed minima at
      `maxPressure`, offsets at 0, no leg has had pressure yet. The members
      initialized outside the constructor start at zero. The state meets the
      invariant, which later divisions rely on, only for a positive
      `minPressure.max`. */
  function Initial(c: Config, minPressure: Range, minPressurePercent: Quotient,
                   isCalibrated: bool, data: FsrData): (s: State)
    ensures Inv(s) <==> c.maxPressure >= 0.0 && minPressure.max > 0.0
    ensures forall l, sn :: s.provider.legs.At(l).sensors.At(sn).lowest == 0.0
    ensures forall l, sn :: s.provider.legs.At(l).sensors.At(sn).newLowest == c.maxPressure
    ensures forall l, sn :: s.provider.legs.At(l).sensors.At(sn).highest == minPressure.max
    ensures forall l, sn :: s.provider.legs.At(l).sensors.At(sn).newHighest == minPressure.max
    ensures forall l :: s.provider.legs.At(l).highestSum == minPressure.max
    ensures forall l :: s.provider.legs.At(l).newHighestSum == minPressure.max
    ensures forall l :: s.provider.legs.At(l).originalHasPressure == 0
    ensures s.provider.maxFootPressureCurrent == minPressure.max
    ensures s.provider.supportSwitchCounter == 0
    ensures s.data == data
  {
    var leg := InitialLeg(c, minPressure.max);
    State(
      Provider(PerLeg(leg, leg), minPressure.max, 0.0, minPressure, minPressurePercent,
               isCalibrated, 0, 0, 0),
      data)
  }

  // ---------------------------------------------------------------------
  // Lines 33-40: adopting an existing calibration

  function AdoptCalibration(s: State, simulatedRobot: bool): (r: State)
    ensures r.provider == s.provider.(isCalibrated := r.provider.isCalibrated)
    ensures r.data == s.data.(isCalibrated := r.data.isCalibrated, minPressure := r.data.minPressure)
    ensures s.data.isCalibrated ==> r == s
    ensures !s.data.isCalibrated ==> r.data.minPressure == s.provider.minPressurePercent
    ensures r.data.isCalibrated <==> s.data.isCalibrated || s.provider.isCalibrated || simulatedRobot
  {
    var p := s.provider;
    var d := s.data;
    if (p.isCalibrated || simulatedRobot) && !d.isCalibrated then
      State(p.(isCalibrated := true), d.(minPressure := p.minPressurePercent, isCalibrated := true))
    else if !d.isCalibrated then
      s.(data := d.(minPressure := p.minPressurePercent))
    else
      s
  }

  // ---------------------------------------------------------------------
  // Lines 42-96: measuring both legs

  /** Line 57: the measured weight (0 for a switched-off sensor), clipped to
      `maxPressure`, minus the sensor's offset, and never below 0. */
  function CalibratedPressure(reading: Reading, lowest: real, maxPressure: real): (p: real)
    requires lowest >= 0.0 && maxPressure >= 0.0
    ensures 0.0 <= p <= maxPressure
    ensures reading.Off? ==> p == 0.0
    ensures reading.Measured? && lowest <= reading.value <= maxPressure ==> p == reading.value - lowest
    ensures reading.Measured? && reading.value <= lowest ==> p == 0.0
  {
    var measured := if reading.Measured? then reading.value else 0.0;
    Max(0.0, Min(maxPressure, measured) - lowest)
  }

  /** This frame's calibrated pressure of a sensor, given its tracker. */
  function SensorPressure(c: Config, t: SensorTrack, reading: Reading): (p: real)
    requires ValidConfig(c) && SensorTrackOk(t)
    ensures 0.0 <= p <= c.maxPressure
  {
    CalibratedPressure(reading, t.lowest, c.maxPressure)
  }

  /** This frame's summed calibrated pressure of a leg (line 58). */
  function FootPressure(c: Config, t: LegTrack, readings: Quad<Reading>): (foot: real)
    requires ValidConfig(c) && LegTrackOk(t)
    ensures foot >= 0.0
  {
    SensorPressure(c, t.sensors.fl, readings.fl) + SensorPressure(c, t.sensors.fr, readings.fr)
    + SensorPressure(c, t.sensors.bl, readings.bl) + SensorPressure(c, t.sensors.br, readings.br)
  }

  datatype SensorOutcome = SensorOutcome(track: SensorTrack, pressure: real, ratio: real)

  /** The relation between a sensor tracker before and after it saw this
      frame's pressure: the all-time and windowed maxima and the windowed
      minimum absorbed it, the offset is unchanged. */
  ghost predicate SensorTracked(c: Config, before: SensorTrack, after: SensorTrack, reading: Reading)
    requires ValidConfig(c) && SensorTrackOk(before)
  {
    var p := SensorPressure(c, before, reading);
    && after.highest == Max(before.highest, p)
    && after.newHighest == Max(before.newHighest, p)
    && after.newLowest == Min(before.newLowest, p)
    && after.lowest == before.lowest
  }

  /** Lines 57-64 for one sensor. */
  function StepSensor(c: Config, t: SensorTrack, reading: Reading): (o: SensorOutcome)
    requires ValidConfig(c) && SensorTrackOk(t)
    ensures SensorTrackOk(o.track)
    ensures o.pressure == SensorPressure(c, t, reading)
    ensures SensorTracked(c, t, o.track, reading)
    ensures 0.0 <= o.ratio <= 1.0
    ensures o.ratio * o.track.highest == o.pressure
  {
    var p := SensorPressure(c, t, reading);
    var track := SensorTrack(Max(t.highest, p), Max(t.newHighest, p), Min(t.newLowest, p), t.lowest);
    QuotientBounds(p, track.highest);
    SensorOutcome(track, p, p / track.highest)
  }

  /** The share `part / (part + other)`, or 0 when both are 0 (lines 90-91). */
  function Share(part: real, other: real): (r: real)
    requires part >= 0.0 && other >= 0.0
    ensures 0.0 <= r <= 1.0
    ensures part + other == 0.0 ==> r == 0.0
    ensures part + other > 0.0 ==> r * (part + other) == part
  {
    QuotientBounds(part, part + other);
    if part + other > 0.0 then part / (part + other) else 0.0
  }

  /** Everything a leg publishes is a ratio in [0, 1], the foot's pressure
      shares are 0 when it bears no pressure, and a foot bearing more than
      `minPressure.max` is stamped with the current time. */
  ghost predicate Published(c: Config, minPressureMax: real, time: int, before: LegTrack,
                            info: LegInfo, ratios: Quad<real>, readings: Quad<Reading>)
    requires ValidConfig(c) && LegTrackOk(before)
  {
    var foot := FootPressure(c, before, readings);
    && 0.0 <= ratios.fl <= 1.0 && 0.0 <= ratios.fr <= 1.0
    && 0.0 <= ratios.bl <= 1.0 && 0.0 <= ratios.br <= 1.0
    && 0.0 <= info.totals <= 1.0
    && 0.0 <= info.sagittalRatio <= 1.0
    && 0.0 <= info.lateralRatio <= 1.0
    && (foot == 0.0 ==> info.sagittalRatio == 0.0 && info.lateralRatio == 0.0)
    && (foot > minPressureMax ==> info.hasPressure == time)
  }

  /** The leg trackers after this frame's pressures: every sensor tracked,
      both leg maxima absorbed the foot pressure. */
  ghost predicate LegTracked(c: Config, before: LegTrack, after: LegTrack, readings: Quad<Reading>)
    requires ValidConfig(c) && LegTrackOk(before)
  {
    var foot := FootPressure(c, before, readings);
    && SensorTracked(c, before.sensors.fl, after.sensors.fl, readings.fl)
    && SensorTracked(c, before.sensors.fr, after.sensors.fr, readings.fr)
    && SensorTracked(c, before.sensors.bl, after.sensors.bl, readings.bl)
    && SensorTracked(c, before.sensors.br, after.sensors.br, readings.br)
    && after.highestSum == Max(before.highestSum, foot)
    && after.newHighestSum == Max(before.newHighestSum, foot)
  }

  /** A timestamp that becomes `time` when `v` exceeds `threshold` and keeps
      its previous value otherwise (the pattern of lines 83 and 85-88). */
  predicate StampedAbove(v: real, threshold: real, time: int, before: int, after: int) {
    && (v > threshold ==> after == time)
    && (v <= threshold ==> after == before)
  }

  /** Line 95: the foot pressure that still counts as pressure, falling from
      `minPressure.max` to `minPressure.min` over `badMinPressureTimewindow`
      after the foot last gained pressure at `since`. */
  function RelaxedThreshold(c: Config, mapToRange: MapToRange, minPressure: Range, time: int, since: int): real {
    mapToRange((time - since) as real, c.badMinPressureTimewindow.min, c.badMinPressureTimewindow.max,
               minPressure.max, minPressure.min)
  }

  /** Lines 83-95: the stamps of a leg after this frame. The foot "gains"
      pressure when it bears more than `minPressure.max` or was already stamped
      now; only then does `hasPressureSince` move, and only on a new frame
      (line 89 reads back the stamp line 84 has just stored). A foot that did
      not gain pressure is stamped when it exceeds the relaxed threshold. Each
      direction is stamped when its pressure exceeds the share
      `minSingleFSRPressureForPredictedSwitchFactor` of `minPressure.max`. */
  ghost predicate PressureStamped(c: Config, mapToRange: MapToRange, minPressure: Range, time: int, lastUpdate: int,
                                  originalHasPressure: int, before: LegInfo, after: LegInfo, foot: real,
                                  backward: real, forward: real, left: real, right: real)
  {
    var threshold := minPressure.max * c.minSingleFSRPressureForPredictedSwitchFactor;
    var gained := foot > minPressure.max || originalHasPressure == time;
    && StampedAbove(backward, threshold, time, before.backwardPressure, after.backwardPressure)
    && StampedAbove(forward, threshold, time, before.forwardPressure, after.forwardPressure)
    && StampedAbove(left, threshold, time, before.leftPressure, after.leftPressure)
    && StampedAbove(right, threshold, time, before.rightPressure, after.rightPressure)
    && (gained && time != lastUpdate ==> after.hasPressureSince == time)
    && (!(gained && time != lastUpdate) ==> after.hasPressureSince == before.hasPressureSince)
    && (gained ==> after.hasPressure == time)
    && (!gained ==> StampedAbove(foot, RelaxedThreshold(c, mapToRange, minPressure, time, after.hasPressureSince),
                                 time, originalHasPressure, after.hasPressure))
  }

  /** `PressureStamped` for a leg's readings: backward is the back sensors,
      forward the front ones, left and right the sensors of that side. */
  ghost predicate LegStamped(c: Config, mapToRange: MapToRange, minPressure: Range, time: int, lastUpdate: int,
                             track: LegTrack, before: LegInfo, after: LegInfo, readings: Quad<Reading>)
    requires ValidConfig(c) && LegTrackOk(track)
  {
    var fl := SensorPressure(c, track.sensors.fl, readings.fl);
    var fr := SensorPressure(c, track.sensors.fr, readings.fr);
    var bl := SensorPressure(c, track.sensors.bl, readings.bl);
    var br := SensorPressure(c, track.sensors.br, readings.br);
    PressureStamped(c, mapToRange, minPressure, time, lastUpdate, track.originalHasPressure, before, after,
                    FootPressure(c, track, readings), bl + br, fl + fr, bl + fl, fr + br)
  }

  /** Lines 82-95: the "last had pressure" timestamps of a leg. */
  function PressureTimes(c: Config, mapToRange: MapToRange, minPressure: Range, time: int, lastUpdate: int,
                         originalHasPressure: int, info: LegInfo, foot: real,
                         backward: real, forward: real, left: real, right: real): (r: LegInfo)
    ensures PressureStamped(c, mapToRange, minPressure, time, lastUpdate, originalHasPressure, info, r, foot,
                            backward, forward, left, right)
    ensures foot > minPressure.max ==> r.hasPressure == time
    ensures r.hasPressure == time || r.hasPressure == originalHasPressure
    ensures r.hasPressureSince == time || r.hasPressureSince == info.hasPressureSince
    ensures r.totals == info.totals && r.sagittalRatio == info.sagittalRatio && r.lateralRatio == info.lateralRatio
  {
    var hasPressure := if foot > minPressure.max then time else originalHasPressure;
    // line 84 stores the stamp before line 89 reads it back
    var storedHasPressure := hasPressure;
    var threshold := minPressure.max * c.minSingleFSRPressureForPredictedSwitchFactor;
    var hasPressureSince :=
      if hasPressure == time && storedHasPressure != lastUpdate then hasPressure else info.hasPressureSince;
    var relaxedThreshold := RelaxedThreshold(c, mapToRange, minPressure, time, hasPressureSince);
    var finalHasPressure :=
      if hasPressure != time then (if foot > relaxedThreshold then time else hasPressure) else hasPressure;
    info.(hasPressure := finalHasPressure,
          hasPressureSince := hasPressureSince,
          backwardPressure := if backward > threshold then time else info.backwardPressure,
          forwardPressure := if forward > threshold then time else info.forwardPressure,
          leftPressure := if left > threshold then time else info.leftPressure,
          rightPressure := if right > threshold then time else info.rightPressure)
  }

  datatype LegOutcome = LegOutcome(track: LegTrack, info: LegInfo, ratios: Quad<real>, footPressure: real)

  /** Lines 49-95 for one leg. `lastUpdate` is the previous frame's
      `lastUpdateTimestamp`. */
  function UpdateLeg(c: Config, mapToRange: MapToRange, minPressure: Range, time: int, lastUpdate: int,
                     t: LegTrack, info: LegInfo, readings: Quad<Reading>): (o: LegOutcome)
    requires ValidConfig(c) && LegTrackOk(t)
    ensures LegTrackOk(o.track)
    ensures o.footPressure == FootPressure(c, t, readings)
    ensures LegTracked(c, t, o.track, readings)
    ensures Published(c, minPressure.max, time, t, o.info, o.ratios, readings)
    ensures o.track.originalHasPressure == if o.footPressure > minPressure.max then time else t.originalHasPressure
    ensures LegStamped(c, mapToRange, minPressure, time, lastUpdate, t, info, o.info, readings)
  {
    var fl := StepSensor(c, t.sensors.fl, readings.fl);
    var fr := StepSensor(c, t.sensors.fr, readings.fr);
    var bl := StepSensor(c, t.sensors.bl, readings.bl);
    var br := StepSensor(c, t.sensors.br, readings.br);
    var foot := fl.pressure + fr.pressure + bl.pressure + br.pressure;
    var highestSum := Max(t.highestSum, foot);
    var newHighestSum := Max(t.newHighestSum, foot);
    var hasPressure := if foot > minPressure.max then time else t.originalHasPressure;
    QuotientBounds(foot, highestSum);
    var shares := info.(totals := foot / highestSum,
                        sagittalRatio := Share(fl.pressure + fr.pressure, bl.pressure + br.pressure),
                        lateralRatio := Share(bl.pressure + fl.pressure, fr.pressure + br.pressure));
    var times := PressureTimes(c, mapToRange, minPressure, time, lastUpdate, t.originalHasPressure, shares, foot,
                               bl.pressure + br.pressure, fl.pressure + fr.pressure,
                               bl.pressure + fl.pressure, fr.pressure + br.pressure);
    assert PressureStamped(c, mapToRange, minPressure, time, lastUpdate, t.originalHasPressure, info, times, foot,
                           bl.pressure + br.pressure, fl.pressure + fr.pressure,
                           bl.pressure + fl.pressure, fr.pressure + br.pressure);
    LegOutcome(
      LegTrack(Quad(fl.track, fr.track, bl.track, br.track), highestSum, newHighestSum, hasPressure),
      times,
      Quad(fl.ratio, fr.ratio, bl.ratio, br.ratio),
      foot)
  }

  /** Lines 42-96: both legs, left first; the maximum foot pressure since the
      last counted switch absorbs both feet. */
  function MeasureLegs(c: Config, mapToRange: MapToRange, s: State, f: Frame): (r: State)
    requires ValidConfig(c) && Inv(s)
    ensures Inv(r)
    ensures r.provider == s.provider.(legs := r.provider.legs, maxFootPressureCurrent := r.provider.maxFootPressureCurrent)
    ensures r.data == s.data.(pressures := r.data.pressures, legInfo := r.data.legInfo)
    ensures LegTracked(c, s.provider.legs.left, r.provider.legs.left, f.readings.left)
    ensures LegTracked(c, s.provider.legs.right, r.provider.legs.right, f.readings.right)
    ensures Published(c, s.provider.minPressure.max, f.time, s.provider.legs.left,
                      r.data.legInfo.left, r.data.pressures.left, f.readings.left)
    ensures Published(c, s.provider.minPressure.max, f.time, s.provider.legs.right,
                      r.data.legInfo.right, r.data.pressures.right, f.readings.right)
    ensures r.provider.maxFootPressureCurrent ==
              Max(Max(s.provider.maxFootPressureCurrent, FootPressure(c, s.provider.legs.left, f.readings.left)),
                  FootPressure(c, s.provider.legs.right, f.readings.right))
    ensures LegStamped(c, mapToRange, s.provider.minPressure, f.time, s.data.lastUpdateTimestamp,
                       s.provider.legs.left, s.data.legInfo.left, r.data.legInfo.left, f.readings.left)
    ensures LegStamped(c, mapToRange, s.provider.minPressure, f.time, s.data.lastUpdateTimestamp,
                       s.provider.legs.right, s.data.legInfo.right, r.data.legInfo.right, f.readings.right)
  {
    var p := s.provider;
    var d := s.data;
    var left := UpdateLeg(c, mapToRange, p.minPressure, f.time, d.lastUpdateTimestamp,
                          p.legs.left, d.legInfo.left, f.readings.left);
    var right := UpdateLeg(c, mapToRange, p.minPressure, f.time, d.lastUpdateTimestamp,
                           p.legs.right, d.legInfo.right, f.readings.right);
    var maxCurrent := Max(Max(p.maxFootPressureCurrent, left.footPressure), right.footPressure);
    State(
      p.(legs := PerLeg(left.track, right.track), maxFootPressureCurrent := maxCurrent),
      d.(pressures := PerLeg(left.ratios, right.ratios), legInfo := PerLeg(left.info, right.info)))
  }

  // ---------------------------------------------------------------------
  // Lines 98-117: refreshing the windowed maxima

  /** Lines 98-100: the robot does not walk, or a leg has had no pressure for
      longer than `maxTimeLegNoPressureForCalibration`. */
  predicate WindowRestarts(c: Config, info: PerLeg<LegInfo>, f: Frame) {
    || !f.isWalking
    || f.time - info.left.hasPressure > c.maxTimeLegNoPressureForCalibration
    || f.time - info.right.hasPressure > c.maxTimeLegNoPressureForCalibration
  }

  /** Lines 98-101: the refresh window restarts at the current time exactly
      when `WindowRestarts` holds; otherwise nothing changes. */
  function RestartRefreshWindow(c: Config, s: State, f: Frame): (r: State)
    ensures r.data == s.data
    ensures r.provider == s.provider.(updatePressureTimestamp := r.provider.updatePressureTimestamp)
    ensures WindowRestarts(c, s.data.legInfo, f) ==> r.provider.updatePressureTimestamp == f.time
    ensures !WindowRestarts(c, s.data.legInfo, f) ==> r == s
  {
    if WindowRestarts(c, s.data.legInfo, f)
    then s.(provider := s.provider.(updatePressureTimestamp := f.time))
    else s
  }

  /** A sensor whose maximum was either kept or replaced by its windowed
      maximum; its minima and offset are untouched. This holds whether or not
      the refresh was due. */
  ghost predicate SensorRefreshed(before: SensorTrack, after: SensorTrack) {
    && (after.highest == before.highest || after.highest == before.newHighest)
    && after.newLowest == before.newLowest
    && after.lowest == before.lowest
  }

  ghost predicate LegRefreshed(before: LegTrack, after: LegTrack) {
    && SensorRefreshed(before.sensors.fl, after.sensors.fl)
    && SensorRefreshed(before.sensors.fr, after.sensors.fr)
    && SensorRefreshed(before.sensors.bl, after.sensors.bl)
    && SensorRefreshed(before.sensors.br, after.sensors.br)
    && (after.highestSum == before.highestSum || after.highestSum == before.newHighestSum)
  }

  /** Lines 110-115 for one sensor: the windowed maximum becomes the maximum
      and a new window starts at `minPressure.max`; minima and offset stay. */
  ghost predicate SensorRenewed(before: SensorTrack, after: SensorTrack, minPressureMax: real) {
    && after.highest == before.newHighest
    && after.newHighest == minPressureMax
    && after.newLowest == before.newLowest
    && after.lowest == before.lowest
  }

  /** Lines 108-116 for one leg: every sensor renewed, the leg's windowed
      maximum becomes its maximum, and the leg's window restarts. */
  ghost predicate LegRenewed(before: LegTrack, after: LegTrack, minPressureMax: real) {
    && SensorRenewed(before.sensors.fl, after.sensors.fl, minPressureMax)
    && SensorRenewed(before.sensors.fr, after.sensors.fr, minPressureMax)
    && SensorRenewed(before.sensors.bl, after.sensors.bl, minPressureMax)
    && SensorRenewed(before.sensors.br, after.sensors.br, minPressureMax)
    && after.highestSum == before.newHighestSum
    && after.newHighestSum == minPressureMax
    && after.originalHasPressure == before.originalHasPressure
  }

  function RefreshSensor(t: SensorTrack, minPressureMax: real): SensorTrack {
    t.(highest := t.newHighest, newHighest := minPressureMax)
  }

  function RefreshLeg(t: LegTrack, minPressureMax: real): (r: LegTrack)
    requires LegTrackOk(t) && minPressureMax > 0.0
    ensures LegTrackOk(r)
    ensures LegRenewed(t, r, minPressureMax)
    ensures LegRefreshed(t, r)
  {
    var q := t.sensors;
    LegTrack(
      Quad(RefreshSensor(q.fl, minPressureMax), RefreshSensor(q.fr, minPressureMax),
           RefreshSensor(q.bl, minPressureMax), RefreshSensor(q.br, minPressureMax)),
      t.newHighestSum, minPressureMax, t.originalHasPressure)
  }

  /** Line 104: the window has lasted longer than `highestPressureUpdateTime`
      and the support foot switches. */
  predicate RefreshDue(c: Config, p: Provider, f: Frame) {
    f.time - p.updatePressureTimestamp > c.highestPressureUpdateTime && f.switched
  }

  /** Lines 104-117: when the refresh is due, both legs' windowed maxima
      become the maxima and a new window starts now; otherwise nothing
      changes. */
  function RefreshHighest(c: Config, s: State, f: Frame): (r: State)
    requires Inv(s)
    ensures Inv(r)
    ensures r.data == s.data
    ensures r.provider == s.provider.(legs := r.provider.legs, updatePressureTimestamp := r.provider.updatePressureTimestamp)
    ensures RefreshDue(c, s.provider, f) ==>
              && r.provider.updatePressureTimestamp == f.time
              && LegRenewed(s.provider.legs.left, r.provider.legs.left, s.provider.minPressure.max)
              && LegRenewed(s.provider.legs.right, r.provider.legs.right, s.provider.minPressure.max)
    ensures !RefreshDue(c, s.provider, f) ==> r == s
    ensures LegRefreshed(s.provider.legs.left, r.provider.legs.left)
    ensures LegRefreshed(s.provider.legs.right, r.provider.legs.right)
  {
    var p := s.provider;
    if RefreshDue(c, p, f) then
      var legs := PerLeg(RefreshLeg(p.legs.left, p.minPressure.max), RefreshLeg(p.legs.right, p.minPressure.max));
      s.(provider := p.(updatePressureTimestamp := f.time, legs := legs))
    else
      s
  }

  // ---------------------------------------------------------------------
  // Lines 120-132: counting support switches

  /** A support switch that counts: inside the time window after the last
      switch, while the walk is the executed phase. */
  predicate CountedSwitch(c: Config, p: Provider, f: Frame) {
    && f.switched
    && f.time - p.lastSupportSwitch < c.maxTimeBetweenSupportSwitches
    && f.time - p.lastSupportSwitch > c.minTimeBetweenSupportSwitches
    && f.executedWalk
  }

  /** The switch counter after this frame's switch handling. */
  function CounterAfterSwitch(c: Config, p: Provider, f: Frame): int {
    if !f.executedWalk then 0
    else if CountedSwitch(c, p, f) then p.supportSwitchCounter + 1
    else p.supportSwitchCounter
  }

  function CountSupportSwitch(c: Config, s: State, f: Frame): (r: State)
    requires Inv(s)
    ensures Inv(r)
    ensures r.data == s.data
    ensures r.provider.legs == s.provider.legs && r.provider.minPressure == s.provider.minPressure
    ensures r.provider.isCalibrated == s.provider.isCalibrated
    ensures r.provider.minPressurePercent == s.provider.minPressurePercent
    ensures !f.executedWalk ==> r.provider.supportSwitchCounter == 0
    ensures (f.executedWalk && CountedSwitch(c, s.provider, f)) ==>
              r.provider.supportSwitchCounter == s.provider.supportSwitchCounter + 1
    ensures (f.executedWalk && !CountedSwitch(c, s.provider, f)) ==>
              r.provider.supportSwitchCounter == s.provider.supportSwitchCounter
    ensures f.switched ==> r.provider.lastSupportSwitch == f.time
    ensures !f.switched ==> r.provider.lastSupportSwitch == s.provider.lastSupportSwitch
    ensures CountedSwitch(c, s.provider, f) ==>
              && r.provider.maxFootSumPressure == s.provider.maxFootSumPressure + s.provider.maxFootPressureCurrent
              && r.provider.maxFootPressureCurrent == 0.0
    ensures !CountedSwitch(c, s.provider, f) ==>
              && r.provider.maxFootSumPressure == s.provider.maxFootSumPressure
              && r.provider.maxFootPressureCurrent == s.provider.maxFootPressureCurrent
    ensures r.provider.updatePressureTimestamp == s.provider.updatePressureTimestamp
  {
    var p := s.provider;
    var counted :=
      if CountedSwitch(c, p, f) then
        p.(supportSwitchCounter := p.supportSwitchCounter + 1,
           lastSupportSwitch := f.time,
           maxFootSumPressure := p.maxFootSumPressure + p.maxFootPressureCurrent,
           maxFootPressureCurrent := 0.0)
      else if f.switched then
        p.(lastSupportSwitch := f.time)
      else
        p;
    var reset := if !f.executedWalk then counted.(supportSwitchCounter := 0) else counted;
    s.(provider := reset)
  }

  // ---------------------------------------------------------------------
  // Lines 135-155: recalibration

  /** (hi - lo) * t + lo stays in [lo, hi] for t in [0, 1]. */
  lemma LerpInRange(lo: real, hi: real, t: real)
    requires lo <= hi && 0.0 <= t <= 1.0
    ensures lo <= (hi - lo) * t + lo <= hi
  {
    assert (hi - lo) * t <= (hi - lo) * 1.0;
  }

  /** The new `minPressure.max`: the average maximum foot pressure per
      counted switch, mapped linearly from the interpolation values onto the
      minimum-pressure range, clamped to it. */
  function CalibratedMinPressure(c: Config, averageFootPressure: real): (m: real)
    requires ValidConfig(c)
    ensures c.minPressureRange.min <= m <= c.minPressureRange.max
    ensures averageFootPressure <= c.minPressureInterpolationValues.min ==> m == c.minPressureRange.min
    ensures averageFootPressure >= c.minPressureInterpolationValues.max ==> m == c.minPressureRange.max
  {
    var iv := c.minPressureInterpolationValues;
    var t := (averageFootPressure - iv.min) / (iv.max - iv.min);
    QuotientBounds(averageFootPressure - iv.min, iv.max - iv.min);
    var factor := ZeroOne.Limit(t);
    LerpInRange(c.minPressureRange.min, c.minPressureRange.max, factor);
    (c.minPressureRange.max - c.minPressureRange.min) * factor + c.minPressureRange.min
  }

  /** A higher average foot pressure never yields a lower threshold: the
      clamped interpolation is monotone. */
  lemma {:induction false} CalibratedMinPressureMonotone(c: Config, a: real, b: real)
    requires ValidConfig(c) && a <= b
    ensures CalibratedMinPressure(c, a) <= CalibratedMinPressure(c, b)
  {
    var iv := c.minPressureInterpolationValues;
    var width := iv.max - iv.min;
    var ta := (a - iv.min) / width;
    var tb := (b - iv.min) / width;
    QuotientBounds(a - iv.min, width);
    QuotientBounds(b - iv.min, width);
    QuotientMonotone(a - iv.min, b - iv.min, width);
    var fa := ZeroOne.Limit(ta);
    var fb := ZeroOne.Limit(tb);
    assert fa <= fb;
    MulNonNegative(c.minPressureRange.max - c.minPressureRange.min, fb - fa);
  }

  /** Line 147: the maximum foot pressure summed over the counted switches,
      divided by their number. */
  function AverageFootPressure(p: Provider): real
    requires p.supportSwitchCounter > 0
  {
    p.maxFootSumPressure / (p.supportSwitchCounter as real)
  }

  /** Whether the switch counter has reached the number that triggers a
      recalibration. */
  predicate CalibrationDue(c: Config, p: Provider) {
    p.supportSwitchCounter >= c.numOfSupportSwitches
  }

  /** A sensor whose windowed minimum became its offset (line 141) and was
      reset to `maxPressure` (line 142); its maxima are untouched. */
  ghost predicate OffsetAdopted(c: Config, before: SensorTrack, after: SensorTrack) {
    after.lowest == before.newLowest && after.newLowest == c.maxPressure && after.highest == before.highest
  }

  ghost predicate LegOffsetsAdopted(c: Config, before: LegTrack, after: LegTrack) {
    && OffsetAdopted(c, before.sensors.fl, after.sensors.fl)
    && OffsetAdopted(c, before.sensors.fr, after.sensors.fr)
    && OffsetAdopted(c, before.sensors.bl, after.sensors.bl)
    && OffsetAdopted(c, before.sensors.br, after.sensors.br)
    && after.highestSum == before.highestSum
  }

  function AdoptOffset(t: SensorTrack, maxPressure: real): SensorTrack {
    t.(lowest := t.newLowest, newLowest := maxPressure)
  }

  function AdoptOffsets(c: Config, t: LegTrack): (r: LegTrack)
    requires ValidConfig(c) && LegTrackOk(t)
    ensures LegTrackOk(r)
    ensures LegOffsetsAdopted(c, t, r)
  {
    var q := t.sensors;
    t.(sensors := Quad(AdoptOffset(q.fl, c.maxPressure), AdoptOffset(q.fr, c.maxPressure),
                       AdoptOffset(q.bl, c.maxPressure), AdoptOffset(q.br, c.maxPressure)))
  }

  function Recalibrate(c: Config, s: State): (r: State)
    requires ValidConfig(c) && Inv(s)
    ensures Inv(r)
    ensures !CalibrationDue(c, s.provider) ==> r == s
    ensures CalibrationDue(c, s.provider) ==>
              && r.data == s.data.(minPressure := r.provider.minPressurePercent, isCalibrated := true)
              && r.provider.supportSwitchCounter == 0
              && r.provider.maxFootSumPressure == 0.0
              && c.minPressureRange.min <= r.provider.minPressure.max <= c.minPressureRange.max
              && r.provider.minPressure == s.provider.minPressure.(max := CalibratedMinPressure(c, AverageFootPressure(s.provider)))
              && r.provider.minPressurePercent == Divide(r.provider.minPressure.max, AverageFootPressure(s.provider))
              && LegOffsetsAdopted(c, s.provider.legs.left, r.provider.legs.left)
              && LegOffsetsAdopted(c, s.provider.legs.right, r.provider.legs.right)
              && r.provider == s.provider.(legs := r.provider.legs, minPressure := r.provider.minPressure,
                                           minPressurePercent := r.provider.minPressurePercent,
                                           supportSwitchCounter := 0, maxFootSumPressure := 0.0)
  {
    var p := s.provider;
    if CalibrationDue(c, p) then
      var legs := PerLeg(AdoptOffsets(c, p.legs.left), AdoptOffsets(c, p.legs.right));
      var average := AverageFootPressure(p);
      var minPressureMax := CalibratedMinPressure(c, average);
      var percent := Divide(minPressureMax, average);
      State(
        p.(legs := legs, minPressure := p.minPressure.(max := minPressureMax), minPressurePercent := percent,
           supportSwitchCounter := 0, maxFootSumPressure := 0.0),
        s.data.(minPressure := percent, isCalibrated := true))
    else
      s
  }

  // ---------------------------------------------------------------------
  // The whole update

  /** After the frame, the leg's maxima are at least this frame's pressures,
      so every published ratio had a denominator at least its numerator. */
  ghost predicate MaximaDominate(c: Config, before: LegTrack, after: LegTrack, readings: Quad<Reading>)
    requires ValidConfig(c) && LegTrackOk(before)
  {
    && after.sensors.fl.highest >= SensorPressure(c, before.sensors.fl, readings.fl)
    && after.sensors.fr.highest >= SensorPressure(c, before.sensors.fr, readings.fr)
    && after.sensors.bl.highest >= SensorPressure(c, before.sensors.bl, readings.bl)
    && after.sensors.br.highest >= SensorPressure(c, before.sensors.br, readings.br)
    && after.highestSum >= FootPressure(c, before, readings)
  }

  /** After a recalibration each offset is the smallest pressure the sensor
      measured in the window, this frame included, and the window restarts
      at `maxPressure`. */
  ghost predicate OffsetsRecalibrated(c: Config, before: LegTrack, after: LegTrack, readings: Quad<Reading>)
    requires ValidConfig(c) && LegTrackOk(before)
  {
    && after.sensors.fl.lowest == Min(before.sensors.fl.newLowest, SensorPressure(c, before.sensors.fl, readings.fl))
    && after.sensors.fr.lowest == Min(before.sensors.fr.newLowest, SensorPressure(c, before.sensors.fr, readings.fr))
    && after.sensors.bl.lowest == Min(before.sensors.bl.newLowest, SensorPressure(c, before.sensors.bl, readings.bl))
    && after.sensors.br.lowest == Min(before.sensors.br.newLowest, SensorPressure(c, before.sensors.br, readings.br))
    && after.sensors.fl.newLowest == c.maxPressure && after.sensors.fr.newLowest == c.maxPressure
    && after.sensors.bl.newLowest == c.maxPressure && after.sensors.br.newLowest == c.maxPressure
  }

  ghost predicate OffsetsKept(before: LegTrack, after: LegTrack) {
    && after.sensors.fl.lowest == before.sensors.fl.lowest
    && after.sensors.fr.lowest == before.sensors.fr.lowest
    && after.sensors.bl.lowest == before.sensors.bl.lowest
    && after.sensors.br.lowest == before.sensors.br.lowest
  }

  /** Tracking, then refreshing, then possibly adopting offsets keeps the
      maxima above this frame's pressures and yields the window minima as
      offsets. */
  lemma {:induction false} LegAfterStep(c: Config, orig: LegTrack, measured: LegTrack, refreshed: LegTrack,
                                        last: LegTrack, readings: Quad<Reading>, due: bool)
    requires ValidConfig(c) && LegTrackOk(orig)
    requires LegTracked(c, orig, measured, readings)
    requires LegRefreshed(measured, refreshed)
    requires due ==> LegOffsetsAdopted(c, refreshed, last)
    requires !due ==> last == refreshed
    ensures MaximaDominate(c, orig, last, readings)
    ensures due ==> OffsetsRecalibrated(c, orig, last, readings)
    ensures !due ==> OffsetsKept(orig, last)
  {
  }

  /** `FsrDataProvider::update` for one frame. */
  function Step(c: Config, mapToRange: MapToRange, s: State, f: Frame): (r: State)
    requires ValidConfig(c) && Inv(s)
    ensures Inv(r)
    ensures r.data.lastUpdateTimestamp == f.time
    // once calibrated, always calibrated
    ensures s.data.isCalibrated ==> r.data.isCalibrated
    ensures !f.executedWalk ==> r.provider.supportSwitchCounter == 0
    ensures (r.provider.supportSwitchCounter == s.provider.supportSwitchCounter + 1) ==>
              CountedSwitch(c, s.provider, f)
    ensures || r.provider.supportSwitchCounter == 0
            || r.provider.supportSwitchCounter == s.provider.supportSwitchCounter
            || r.provider.supportSwitchCounter == s.provider.supportSwitchCounter + 1
  {
    var s1 := AdoptCalibration(s, f.simulatedRobot);
    var s2 := MeasureLegs(c, mapToRange, s1, f);
    var s3 := RestartRefreshWindow(c, s2, f);
    var s4 := RefreshHighest(c, s3, f);
    var s5 := CountSupportSwitch(c, s4, f);
    var s6 := Recalibrate(c, s5);
    s6.(data := s6.data.(lastUpdateTimestamp := f.time))
  }

  /** What one frame publishes: ratios in [0, 1], shares 0 for a foot without
      pressure, the current time for a foot bearing more than `minPressure.max`,
      and every stamp of lines 83-95. */
  lemma StepPublishes(c: Config, mapToRange: MapToRange, s: State, f: Frame)
    requires ValidConfig(c) && Inv(s)
    ensures Published(c, s.provider.minPressure.max, f.time, s.provider.legs.left,
                      Step(c, mapToRange, s, f).data.legInfo.left,
                      Step(c, mapToRange, s, f).data.pressures.left, f.readings.left)
    ensures Published(c, s.provider.minPressure.max, f.time, s.provider.legs.right,
                      Step(c, mapToRange, s, f).data.legInfo.right,
                      Step(c, mapToRange, s, f).data.pressures.right, f.readings.right)
    ensures LegStamped(c, mapToRange, s.provider.minPressure, f.time, s.data.lastUpdateTimestamp,
                       s.provider.legs.left, s.data.legInfo.left,
                       Step(c, mapToRange, s, f).data.legInfo.left, f.readings.left)
    ensures LegStamped(c, mapToRange, s.provider.minPressure, f.time, s.data.lastUpdateTimestamp,
                       s.provider.legs.right, s.data.legInfo.right,
                       Step(c, mapToRange, s, f).data.legInfo.right, f.readings.right)
  {
    var s1 := AdoptCalibration(s, f.simulatedRobot);
    var s2 := MeasureLegs(c, mapToRange, s1, f);
    assert Step(c, mapToRange, s, f).data.legInfo == s2.data.legInfo;
    assert Step(c, mapToRange, s, f).data.pressures == s2.data.pressures;
  }

  /** After a frame the maxima of both legs dominate this frame's pressures,
      and the offsets either stayed or became the window minima. */
  lemma StepTracksLegs(c: Config, mapToRange: MapToRange, s: State, f: Frame)
    requires ValidConfig(c) && Inv(s)
    ensures MaximaDominate(c, s.provider.legs.left, Step(c, mapToRange, s, f).provider.legs.left, f.readings.left)
    ensures MaximaDominate(c, s.provider.legs.right, Step(c, mapToRange, s, f).provider.legs.right, f.readings.right)
    ensures CounterAfterSwitch(c, s.provider, f) >= c.numOfSupportSwitches ==>
              && OffsetsRecalibrated(c, s.provider.legs.left, Step(c, mapToRange, s, f).provider.legs.left, f.readings.left)
              && OffsetsRecalibrated(c, s.provider.legs.right, Step(c, mapToRange, s, f).provider.legs.right, f.readings.right)
    ensures CounterAfterSwitch(c, s.provider, f) < c.numOfSupportSwitches ==>
              && OffsetsKept(s.provider.legs.left, Step(c, mapToRange, s, f).provider.legs.left)
              && OffsetsKept(s.provider.legs.right, Step(c, mapToRange, s, f).provider.legs.right)
  {
    var s1 := AdoptCalibration(s, f.simulatedRobot);
    var s2 := MeasureLegs(c, mapToRange, s1, f);
    var s3 := RestartRefreshWindow(c, s2, f);
    var s4 := RefreshHighest(c, s3, f);
    var s5 := CountSupportSwitch(c, s4, f);
    var s6 := Recalibrate(c, s5);
    var due := CalibrationDue(c, s5.provider);
    assert s5.provider.supportSwitchCounter == CounterAfterSwitch(c, s.provider, f);
    assert Step(c, mapToRange, s, f).provider == s6.provider;
    LegAfterStep(c, s.provider.legs.left, s2.provider.legs.left, s4.provider.legs.left,
                 s6.provider.legs.left, f.readings.left, due);
    LegAfterStep(c, s.provider.legs.right, s2.provider.legs.right, s4.provider.legs.right,
                 s6.provider.legs.right, f.readings.right, due);
  }

  /** The switch counter and the recalibration: below the threshold the
      counter follows the switches and the minimum pressure stays; at the
      threshold the provider recalibrates, publishes the new minimum-pressure
      share and restarts counting. */
  lemma StepCalibrates(c: Config, mapToRange: MapToRange, s: State, f: Frame)
    requires ValidConfig(c) && Inv(s)
    ensures CounterAfterSwitch(c, s.provider, f) < c.numOfSupportSwitches ==>
              && Step(c, mapToRange, s, f).provider.supportSwitchCounter == CounterAfterSwitch(c, s.provider, f)
              && Step(c, mapToRange, s, f).provider.minPressure == s.provider.minPressure
    ensures CounterAfterSwitch(c, s.provider, f) >= c.numOfSupportSwitches ==>
              && Step(c, mapToRange, s, f).data.isCalibrated
              && Step(c, mapToRange, s, f).provider.supportSwitchCounter == 0
              && c.minPressureRange.min <= Step(c, mapToRange, s, f).provider.minPressure.max <= c.minPressureRange.max
              && Step(c, mapToRange, s, f).data.minPressure == Step(c, mapToRange, s, f).provider.minPressurePercent
  {
    var s1 := AdoptCalibration(s, f.simulatedRobot);
    var s2 := MeasureLegs(c, mapToRange, s1, f);
    var s3 := RestartRefreshWindow(c, s2, f);
    var s4 := RefreshHighest(c, s3, f);
    var s5 := CountSupportSwitch(c, s4, f);
    assert s5.provider.supportSwitchCounter == CounterAfterSwitch(c, s.provider, f);
    assert s5.provider.minPressure == s.provider.minPressure;
  }

  /** A run of frames keeps the invariant and never loses the calibration. */
  function Run(c: Config, mapToRange: MapToRange, s: State, frames: seq<Frame>): (r: State)
    requires ValidConfig(c) && Inv(s)
    ensures Inv(r)
    ensures s.data.isCalibrated ==> r.data.isCalibrated
    ensures |frames| > 0 ==> r.data.lastUpdateTimestamp == frames[|frames| - 1].time
    decreases |frames|
  {
    if |frames| == 0 then s
    else
      var rest := frames[1..];
      assert |rest| > 0 ==> rest[|rest| - 1] == frames[|frames| - 1];
      Run(c, mapToRange, Step(c, mapToRange, s, frames[0]), rest)
  }
}

=== FILE: mathtools.dfy ===
/** Numeric helpers shared by every module: clamping over `real`, a plain 2D
    vector, the `Rangef` interval, and the foreign numeric routines (vector norm,
    square root, angle, exponential, `mapToRange`, distance to an edge, polar
    construction) that the modelled code calls but whose internals are not part
    of this model. Those routines are passed in as function values. */
module MathTools {

  const Pi: real := 3.14159265358979323846
  const TwoPi: real := 2.0 * Pi

  /** Degrees as radians (`_deg`). */
  function Deg(d: real): real {
    d * Pi / 180.0
  }

  function Max(a: real, b: real): (r: real)
    ensures r >= a && r >= b
    ensures r == a || r == b
  {
    if a >= b then a else b
  }

  function Min(a: real, b: real): (r: real)
    ensures r <= a && r <= b
    ensures r == a || r == b
  {
    if a <= b then a else b
  }

  function Abs(a: real): (r: real)
    ensures r >= 0.0
    ensures r == a || r == -a
  {
    if a < 0.0 then -a else a
  }

  function Sqr(a: real): (r: real)
    ensures r >= 0.0
    ensures a != 0.0 ==> r > 0.0
  {
    var m := Abs(a);
    if m > 0.0 then PositiveProduct(m, m) else 0.0
  }

  /** x * y for positive factors, known positive. */
  function PositiveProduct(x: real, y: real): (r: real)
    requires x > 0.0 && y > 0.0
    ensures r == x * y
    ensures r > 0.0
  {
    x * y
  }

  lemma MulNonNegative(x: real, y: real)
    requires x >= 0.0 && y >= 0.0
    ensures x * y >= 0.0
  {
  }

  lemma MulPositive(x: real, y: real)
    requires x > 0.0 && y > 0.0
    ensures x * y > 0.0
  {
  }

  /** `Rangef`: a closed interval of floats. */
  datatype Range = Range(min: real, max: real) {

    predicate IsInside(v: real) {
      min <= v <= max
    }

    /** `Rangef::limit`: clamps a value into the interval. */
    function Limit(v: real): (r: real)
      requires min <= max
      ensures min <= r <= max
      ensures IsInside(v) ==> r == v
      ensures v < min ==> r == min
      ensures v > max ==> r == max
    {
      if v < min then min else if v > max then max else v
    }
  }

  const ZeroOne: Range := Range(0.0, 1.0)

  /** `Rangef::ZeroOneRange().limit`. */
  function Limit01(v: real): (r: real)
    ensures 0.0 <= r <= 1.0
    ensures 0.0 <= v <= 1.0 ==> r == v
  {
    ZeroOne.Limit(v)
  }

  /** A value that lies between two others (in either order). */
  predicate Between(a: real, v: real, b: real) {
    Min(a, b) <= v <= Max(a, b)
  }

  /** a + k * (b - a) lies between a and b for k in [0, 1]. */
  lemma LerpBetween(a: real, b: real, k: real)
    requires 0.0 <= k <= 1.0
    ensures Between(a, a + k * (b - a), b)
  {
    if a <= b {
      MulNonNegative(k, b - a);
      MulNonNegative(1.0 - k, b - a);
    } else {
      MulNonNegative(k, a - b);
      MulNonNegative(1.0 - k, a - b);
    }
  }

  datatype Vec2 = Vec2(x: real, y: real)

  const Zero: Vec2 := Vec2(0.0, 0.0)

  function Add(a: Vec2, b: Vec2): Vec2 {
    Vec2(a.x + b.x, a.y + b.y)
  }

  function Sub(a: Vec2, b: Vec2): Vec2 {
    Vec2(a.x - b.x, a.y - b.y)
  }

  function Scale(v: Vec2, k: real): Vec2 {
    Vec2(k * v.x, k * v.y)
  }

  /** `Vector2f::squaredNorm`. */
  function SquaredNorm(v: Vec2): (r: real)
    ensures r >= 0.0
  {
    v.x * v.x + v.y * v.y
  }

  /** The foreign numeric routines, as uninterpreted function values. */
  datatype Oracles = Oracles(
    norm: Vec2 -> real,                               // Vector2f::norm
    sqrt: real -> real,                               // std::sqrt
    angle: Vec2 -> real,                              // Vector2f::angle
    exp: real -> real,                                // std::exp, std::pow(e, .)
    mapToRange: (real, real, real, real, real) -> real, // mapToRange(v, fromMin, fromMax, toMin, toMax)
    distanceToEdge: (Vec2, Vec2, Vec2) -> real,       // Geometry::getDistanceToEdge(Line(base, dir), p)
    polar: (real, real) -> Vec2                       // Vector2f::polar(length, angle)
  )

  /** `mapToRange(v, a, b, 0, 1)` and `mapToRange(v, a, b, 1, 0)` clamp into
      [0, 1]. Not assumed anywhere; lemmas that need it take it as a
      hypothesis. */
  ghost predicate MapsIntoUnit(o: Oracles) {
    && (forall v, a, b :: 0.0 <= o.mapToRange(v, a, b, 0.0, 1.0) <= 1.0)
    && (forall v, a, b :: 0.0 <= o.mapToRange(v, a, b, 1.0, 0.0) <= 1.0)
  }

  /** `std::exp` of a non-positive argument lies in [0, 1]. Not assumed
      anywhere; lemmas that need it take it as a hypothesis. */
  ghost predicate ExpDecays(o: Oracles) {
    forall t :: t <= 0.0 ==> 0.0 <= o.exp(t) <= 1.0
  }

  /** The only facts assumed of the foreign routines: a norm and an
      exponential are never negative. */
  ghost predicate WellFormed(o: Oracles) {
    && (forall v :: o.norm(v) >= 0.0)
    && (forall t :: o.exp(t) >= 0.0)
  }

  /** `Vector2f::normalized(length)`: the vector scaled to the given length;
      a vector of norm zero is returned unchanged. */
  function Normalized(o: Oracles, v: Vec2, length: real): Vec2 {
    var n := o.norm(v);
    if n == 0.0 then v else Scale(v, length / n)
  }

  /** A product of two values in [0, 1] lies in [0, 1]. */
  lemma ProductOfUnits(a: real, b: real)
    ensures (0.0 <= a <= 1.0 && 0.0 <= b <= 1.0) ==> 0.0 <= a * b <= 1.0
  {
    if 0.0 <= a <= 1.0 && 0.0 <= b <= 1.0 {
      MulNonNegative(a, b);
      MulNonNegative(a, 1.0 - b);
    }
  }

  /** a / b for a positive divisor, compared with 0 and 1: the quotient has
      the sign of a, and lies on the same side of 1 as a does of b. */
  lemma QuotientBounds(a: real, b: real)
    ensures b > 0.0 ==> a / b * b == a
    ensures b > 0.0 && a >= 0.0 ==> a / b >= 0.0
    ensures b > 0.0 && a <= 0.0 ==> a / b <= 0.0
    ensures b > 0.0 && a <= b ==> a / b <= 1.0
    ensures b > 0.0 && a >= b ==> a / b >= 1.0
  {
    if b > 0.0 {
      assert a / b * b == a;
    }
  }

  /** Dividing by a positive divisor keeps the order. */
  lemma {:induction false} QuotientMonotone(x: real, y: real, w: real)
    requires w > 0.0 && x <= y
    ensures x / w <= y / w
  {
    var qx := x / w;
    var qy := y / w;
    assert qx * w == x && qy * w == y;
    assert (qy - qx) * w == y - x;
    if qy < qx {
      MulPositive(qx - qy, w);
      assert false;
    }
  }
}

=== FILE: passevaluation.dfy ===
/** `PassEvaluationProvider`: rates a pass target by the estimated chance that
    a pass from a base position would succeed. The rating is the product of up
    to five factors, each of which can be switched off, floored at `minValue`;
    targets outside the field are rated 0. The world model (opponents, ball,
    game state) and the foreign routines (`mapToRange`, the distance of a point
    to a line, the expected-goals rating, the in-field test) are parameters. */
module PassEvaluation {

  import opened MathTools
  import opened FieldDimensions

  /** `std::numeric_limits<float>::max()`, the start of the running minima. */
  const FloatMax: real := 340282346638528859811704183484516925440.0

  datatype Params = Params(
    calcPassTargetFree: bool,
    calcPassLineFree: bool,
    calcPassTargetInField: bool,
    calcShotLineFree: bool,
    calcShotDistance: bool,
    opponentDistToTargetThreshold: real,
    obstacleBlockingRadius: real,
    opponentDistToLineThreshold: real,
    distToBoundaryThreshold: real,
    minValue: real,
    opponentShiftToBall: real,
    distancePenaltyThresholdFreeKick: real,
    distancePenaltyThresholdPlaying: real,
    distancePenaltyDeviation: real,
    leftGoalPost: Vec2,
    rightGoalPost: Vec2,
    goalPostShift: Vec2)

  /** What the provider reads from other modules in one frame. */
  datatype World = World(
    opponents: seq<Vec2>,
    ball: Vec2,
    isFreeKick: bool,
    isForOwnTeam: bool,
    insideField: Vec2 -> bool,   // FieldDimensions::isInsideField
    xG: Vec2 -> real,            // ExpectedGoals::xG
    field: Dimensions)

  // ---------------------------------------------------------------------
  // Lines 77-88: opponents shifted towards the ball

  /** The fraction of the opponent-to-ball vector an opponent is shifted by:
      the vector normalized to `min(opponentShiftToBall, its norm)`. */
  function ShiftFactor(o: Oracles, toBall: Vec2, shift: real): (k: real)
    ensures o.norm(toBall) == 0.0 ==> k == 1.0
    ensures o.norm(toBall) > 0.0 ==> k * o.norm(toBall) == Min(shift, o.norm(toBall))
    ensures o.norm(toBall) > 0.0 ==> k <= 1.0
    ensures o.norm(toBall) > 0.0 && shift >= 0.0 ==> k >= 0.0
  {
    var n := o.norm(toBall);
    if n == 0.0 then 1.0
    else
      var k := Min(shift, n) / n;
      QuotientBounds(Min(shift, n), n);
      k
  }

  /** One opponent moved towards the ball by `opponentShiftToBall`, but never
      beyond it. */
  function ShiftOpponent(o: Oracles, ball: Vec2, opponent: Vec2, shift: real): (r: Vec2)
    ensures r == Add(opponent, Scale(Sub(ball, opponent), ShiftFactor(o, Sub(ball, opponent), shift)))
    ensures o.norm(Sub(ball, opponent)) == 0.0 ==> r == ball
  {
    var toBall := Sub(ball, opponent);
    var moved := Add(opponent, Normalized(o, toBall, Min(shift, o.norm(toBall))));
    assert o.norm(toBall) != 0.0 ==> Normalized(o, toBall, Min(shift, o.norm(toBall))) == Scale(toBall, ShiftFactor(o, toBall, shift));
    moved
  }

  /** With a non-negative shift the opponent lands on the segment from its
      position to the ball: it is never shifted past the ball. */
  lemma {:induction false} ShiftStaysOnSegment(o: Oracles, ball: Vec2, opponent: Vec2, shift: real)
    requires WellFormed(o) && shift >= 0.0
    ensures Between(opponent.x, ShiftOpponent(o, ball, opponent, shift).x, ball.x)
    ensures Between(opponent.y, ShiftOpponent(o, ball, opponent, shift).y, ball.y)
  {
    var toBall := Sub(ball, opponent);
    var k := ShiftFactor(o, toBall, shift);
    assert o.norm(toBall) >= 0.0;
    assert 0.0 <= k <= 1.0;
    LerpBetween(opponent.x, ball.x, k);
    LerpBetween(opponent.y, ball.y, k);
  }

  /** `updateParameters`: exactly one shifted position per opponent, in order. */
  function UpdateParameters(o: Oracles, p: Params, w: World): (r: seq<Vec2>)
    ensures |r| == |w.opponents|
    ensures forall i :: 0 <= i < |r| ==> r[i] == ShiftOpponent(o, w.ball, w.opponents[i], p.opponentShiftToBall)
  {
    seq(|w.opponents|, i requires 0 <= i < |w.opponents| =>
      ShiftOpponent(o, w.ball, w.opponents[i], p.opponentShiftToBall))
  }

  /** Every shifted opponent lies between its observed position and the ball. */
  lemma {:induction false} ShiftedOpponentsBetween(o: Oracles, p: Params, w: World, i: int)
    requires WellFormed(o) && p.opponentShiftToBall >= 0.0
    requires 0 <= i < |w.opponents|
    ensures Between(w.opponents[i].x, UpdateParameters(o, p, w)[i].x, w.ball.x)
    ensures Between(w.opponents[i].y, UpdateParameters(o, p, w)[i].y, w.ball.y)
  {
    ShiftStaysOnSegment(o, w.ball, w.opponents[i], p.opponentShiftToBall);
  }

  // ---------------------------------------------------------------------
  // Lines 51-55, 90-98: running minimum distances

  datatype MinDistances = MinDistances(toTarget: real, toLine: real)

  const NoDistances: MinDistances := MinDistances(FloatMax, FloatMax)

  function DistanceToTarget(o: Oracles, target: Vec2, obstacle: Vec2): real {
    o.norm(Sub(target, obstacle))
  }

  /** Distance of the obstacle to the line through the base along the pass. */
  function DistanceToPassLine(o: Oracles, base: Vec2, target: Vec2, obstacle: Vec2): real {
    o.distanceToEdge(base, Sub(target, base), obstacle)
  }

  /** `updateMinDistances`: both running minima absorb one obstacle. */
  function UpdateMinDistances(o: Oracles, base: Vec2, target: Vec2, obstacle: Vec2, m: MinDistances): (r: MinDistances)
    ensures r.toTarget <= m.toTarget && r.toLine <= m.toLine
    ensures r.toTarget <= DistanceToTarget(o, target, obstacle)
    ensures r.toLine <= DistanceToPassLine(o, base, target, obstacle)
    ensures r.toTarget == m.toTarget || r.toTarget == DistanceToTarget(o, target, obstacle)
    ensures r.toLine == m.toLine || r.toLine == DistanceToPassLine(o, base, target, obstacle)
  {
    var distToTarget := DistanceToTarget(o, target, obstacle);
    var distToLine := DistanceToPassLine(o, base, target, obstacle);
    MinDistances(if distToTarget < m.toTarget then distToTarget else m.toTarget,
                 if distToLine < m.toLine then distToLine else m.toLine)
  }

  /** Lines 52-55: the loop over all shifted opponents. The result is the
      minimum of the start values and every obstacle's distances. */
  function MinDistancesOver(o: Oracles, base: Vec2, target: Vec2, obstacles: seq<Vec2>, m: MinDistances): (r: MinDistances)
    ensures r.toTarget <= m.toTarget && r.toLine <= m.toLine
    ensures forall i :: 0 <= i < |obstacles| ==> r.toTarget <= DistanceToTarget(o, target, obstacles[i])
    ensures forall i :: 0 <= i < |obstacles| ==> r.toLine <= DistanceToPassLine(o, base, target, obstacles[i])
    ensures r.toTarget == m.toTarget
            || exists i :: 0 <= i < |obstacles| && r.toTarget == DistanceToTarget(o, target, obstacles[i])
    ensures r.toLine == m.toLine
            || exists i :: 0 <= i < |obstacles| && r.toLine == DistanceToPassLine(o, base, target, obstacles[i])
    decreases |obstacles|
  {
    if |obstacles| == 0 then m
    else
      var next := UpdateMinDistances(o, base, target, obstacles[0], m);
      var r := MinDistancesOver(o, base, target, obstacles[1..], next);
      assert forall i :: 1 <= i < |obstacles| ==> obstacles[i] == obstacles[1..][i - 1];
      r
  }

  // ---------------------------------------------------------------------
  // Lines 100-130: the single factors

  /** `isShotLineFree`: how little a pass to the target blocks the teammate's
      direct shot from the base; 1 once the base is past the goal line. Each
      side's transition is in [0, 1], so the result is one of them or their
      sum. */
  function IsShotLineFree(o: Oracles, p: Params, fd: Dimensions, base: Vec2, target: Vec2): (r: real)
    ensures base.x > fd.xPosOpponentGoalLine ==> r == 1.0
    ensures MapsIntoUnit(o) ==> 0.0 <= r <= 2.0
  {
    if base.x > fd.xPosOpponentGoalLine then 1.0
    else
      var baseToPoint := o.angle(Sub(target, base));
      var baseToLeftGoalPost := o.angle(Sub(p.leftGoalPost, base));
      var baseToRightGoalPost := o.angle(Sub(p.rightGoalPost, base));
      var baseToLeftGoalArea := o.angle(Sub(Add(p.leftGoalPost, p.goalPostShift), base));
      var baseToRightGoalArea := o.angle(Sub(Sub(p.rightGoalPost, p.goalPostShift), base));
      var leftSideTransition := o.mapToRange(baseToPoint, baseToLeftGoalPost, baseToLeftGoalArea, 0.0, 1.0);
      var rightSideTransition := o.mapToRange(baseToPoint, baseToRightGoalArea, baseToRightGoalPost, 1.0, 0.0);
      if leftSideTransition == rightSideTransition then leftSideTransition
      else leftSideTransition + rightSideTransition
  }

  /** The pass distance beyond which the rating decays: the free-kick
      threshold for an own free kick, the playing threshold otherwise. */
  function MaxPassDistance(p: Params, w: World): (d: real)
    ensures w.isFreeKick && w.isForOwnTeam ==> d == p.distancePenaltyThresholdFreeKick
    ensures !(w.isFreeKick && w.isForOwnTeam) ==> d == p.distancePenaltyThresholdPlaying
  {
    if w.isFreeKick && w.isForOwnTeam then p.distancePenaltyThresholdFreeKick
    else p.distancePenaltyThresholdPlaying
  }

  /** The Gaussian of `isTargetInRange`, which divides by the deviation, is
      only evaluated for a target at or beyond the maximum pass distance. */
  predicate GaussianDefined(o: Oracles, p: Params, w: World, base: Vec2, target: Vec2) {
    o.norm(Sub(target, base)) >= MaxPassDistance(p, w) ==> p.distancePenaltyDeviation != 0.0
  }

  /** `isTargetInRange`: 1 within the kick range, a Gaussian decay beyond. */
  function IsTargetInRange(o: Oracles, p: Params, w: World, base: Vec2, target: Vec2): (r: real)
    requires GaussianDefined(o, p, w, base, target)
    ensures o.norm(Sub(target, base)) < MaxPassDistance(p, w) ==> r == 1.0
    ensures WellFormed(o) ==> r >= 0.0
  {
    var maxDist := MaxPassDistance(p, w);
    var baseDist := o.norm(Sub(target, base));
    if baseDist < maxDist then 1.0
    else o.exp(-0.5 * Sqr(baseDist - maxDist) / Sqr(p.distancePenaltyDeviation))
  }

  /** When `exp` of a non-positive argument lies in [0, 1], so does the range
      factor: the Gaussian's exponent is never positive. */
  lemma {:induction false} TargetInRangeInUnit(o: Oracles, p: Params, w: World, base: Vec2, target: Vec2)
    requires GaussianDefined(o, p, w, base, target)
    requires ExpDecays(o)
    ensures 0.0 <= IsTargetInRange(o, p, w, base, target) <= 1.0
  {
    var maxDist := MaxPassDistance(p, w);
    var baseDist := o.norm(Sub(target, base));
    if baseDist >= maxDist {
      var dev := p.distancePenaltyDeviation;
      var t := -0.5 * Sqr(baseDist - maxDist) / Sqr(dev);
      assert -0.5 * Sqr(baseDist - maxDist) <= 0.0 && Sqr(dev) > 0.0;
      assert t <= 0.0;
      assert IsTargetInRange(o, p, w, base, target) == o.exp(t);
    }
  }

  /** `getDistanceToFieldBorder`: the smaller of the (non-negative) distances
      to the goal lines and to the touchlines, for a field symmetric about
      both axes. */
  function DistanceToFieldBorder(fd: Dimensions, point: Vec2): (r: real)
    ensures r >= 0.0
    ensures r > 0.0 <==> Abs(point.x) < fd.xPosOpponentGoalLine && Abs(point.y) < fd.yPosLeftTouchline
    ensures r <= Max(0.0, fd.xPosOpponentGoalLine - Abs(point.x))
    ensures r <= Max(0.0, fd.yPosLeftTouchline - Abs(point.y))
  {
    Min(Max(0.0, fd.xPosOpponentGoalLine - Abs(point.x)),
        Max(0.0, fd.yPosLeftTouchline - Abs(point.y)))
  }

  /** Mirroring a point across either axis leaves its border distance alone. */
  lemma DistanceToFieldBorderSymmetric(fd: Dimensions, point: Vec2)
    ensures DistanceToFieldBorder(fd, Vec2(-point.x, point.y)) == DistanceToFieldBorder(fd, point)
    ensures DistanceToFieldBorder(fd, Vec2(point.x, -point.y)) == DistanceToFieldBorder(fd, point)
  {
  }

  // ---------------------------------------------------------------------
  // Lines 41-75: the rating

  datatype Factors = Factors(
    passTargetFree: real,
    passLineFree: real,
    passTargetInField: real,
    shotLineFree: real,
    targetInRange: real)

  function Product(f: Factors): real {
    f.passTargetFree * f.passLineFree * f.passTargetInField * f.shotLineFree * f.targetInRange
  }

  predicate AllInUnit(f: Factors) {
    && 0.0 <= f.passTargetFree <= 1.0
    && 0.0 <= f.passLineFree <= 1.0
    && 0.0 <= f.passTargetInField <= 1.0
    && 0.0 <= f.shotLineFree <= 1.0
    && 0.0 <= f.targetInRange <= 1.0
  }

  /** A factor computed by `mapToRange` onto [0, 1] when enabled, else 1. */
  function MappedFactor(o: Oracles, enabled: bool, v: real, lo: real, hi: real): (r: real)
    ensures !enabled ==> r == 1.0
    ensures MapsIntoUnit(o) ==> 0.0 <= r <= 1.0
  {
    if enabled then o.mapToRange(v, lo, hi, 0.0, 1.0) else 1.0
  }

  /** Lines 52-70: the five factors. A factor switched off is exactly 1; the
      pass line is ignored while positioning; a base past the goal line never
      blocks a shot; a target inside the kick range is fully in range. */
  function RatingFactors(o: Oracles, p: Params, w: World, base: Vec2, target: Vec2, isPositioning: bool): (f: Factors)
    requires p.calcShotDistance ==> GaussianDefined(o, p, w, base, target)
    ensures !p.calcPassTargetFree ==> f.passTargetFree == 1.0
    ensures (isPositioning || !p.calcPassLineFree) ==> f.passLineFree == 1.0
    ensures !p.calcPassTargetInField ==> f.passTargetInField == 1.0
    ensures (!p.calcShotLineFree || base.x > w.field.xPosOpponentGoalLine) ==> f.shotLineFree == 1.0
    ensures (!p.calcShotDistance || o.norm(Sub(target, base)) < MaxPassDistance(p, w)) ==> f.targetInRange == 1.0
    ensures WellFormed(o) ==> f.targetInRange >= 0.0
    ensures MapsIntoUnit(o) ==>
              && 0.0 <= f.passTargetFree <= 1.0
              && 0.0 <= f.passLineFree <= 1.0
              && 0.0 <= f.passTargetInField <= 1.0
  {
    var m := MinDistancesOver(o, base, target, UpdateParameters(o, p, w), NoDistances);
    Factors(
      MappedFactor(o, p.calcPassTargetFree, m.toTarget, 0.0, p.opponentDistToTargetThreshold),
      MappedFactor(o, !isPositioning && p.calcPassLineFree, m.toLine,
                   p.obstacleBlockingRadius, p.opponentDistToLineThreshold),
      MappedFactor(o, p.calcPassTargetInField, DistanceToFieldBorder(w.field, target), 0.0, p.distToBoundaryThreshold),
      ShotFactor(o, p, w, base, target),
      RangeFactor(o, p, w, base, target))
  }

  /** Line 67: the shot-line factor, 1 when switched off or when the base is
      past the goal line. */
  function ShotFactor(o: Oracles, p: Params, w: World, base: Vec2, target: Vec2): (r: real)
    ensures (!p.calcShotLineFree || base.x > w.field.xPosOpponentGoalLine) ==> r == 1.0
  {
    if p.calcShotLineFree
    then 1.0 - (1.0 - IsShotLineFree(o, p, w.field, base, target)) * w.xG(base) else 1.0
  }

  /** Line 70: the kick-range factor, 1 when switched off. */
  function RangeFactor(o: Oracles, p: Params, w: World, base: Vec2, target: Vec2): (r: real)
    requires p.calcShotDistance ==> GaussianDefined(o, p, w, base, target)
    ensures (!p.calcShotDistance || o.norm(Sub(target, base)) < MaxPassDistance(p, w)) ==> r == 1.0
    ensures WellFormed(o) ==> r >= 0.0
    ensures p.calcShotDistance ==> r == IsTargetInRange(o, p, w, base, target)
  {
    if p.calcShotDistance then IsTargetInRange(o, p, w, base, target) else 1.0
  }

  /** `getRating`: 0 outside the field, otherwise the product of the factors
      floored at `minValue`. */
  function GetRating(o: Oracles, p: Params, w: World, base: Vec2, target: Vec2, isPositioning: bool): (r: real)
    requires w.insideField(target) && p.calcShotDistance ==> GaussianDefined(o, p, w, base, target)
    ensures !w.insideField(target) ==> r == 0.0
    ensures w.insideField(target) ==> r >= p.minValue
    ensures w.insideField(target) ==> r == Floored(p.minValue, RatingFactors(o, p, w, base, target, isPositioning))
  {
    if !w.insideField(target) then 0.0
    else Floored(p.minValue, RatingFactors(o, p, w, base, target, isPositioning))
  }

  /** Line 74: the combined value, floored at `minValue`. */
  function Floored(minValue: real, f: Factors): (r: real)
    ensures r >= minValue
    ensures r == minValue || r == Product(f)
    ensures Product(f) >= minValue ==> r == Product(f)
  {
    Max(minValue, Product(f))
  }

  /** With every factor switched off an in-field target is rated
      `max(minValue, 1)`. */
  lemma AllFactorsOff(o: Oracles, p: Params, w: World, base: Vec2, target: Vec2, isPositioning: bool)
    requires !p.calcPassTargetFree && !p.calcPassLineFree && !p.calcPassTargetInField
    requires !p.calcShotLineFree && !p.calcShotDistance
    requires w.insideField(target)
    ensures GetRating(o, p, w, base, target, isPositioning) == Max(p.minValue, 1.0)
  {
    var f := RatingFactors(o, p, w, base, target, isPositioning);
    assert f == Factors(1.0, 1.0, 1.0, 1.0, 1.0);
    assert Product(f) == 1.0;
  }

  /** A product of five factors in [0, 1] lies in [0, 1]. */
  lemma {:induction false} ProductInUnit(f: Factors)
    requires AllInUnit(f)
    ensures 0.0 <= Product(f) <= 1.0
  {
    var a := f.passTargetFree * f.passLineFree;
    ProductOfUnits(f.passTargetFree, f.passLineFree);
    var b := a * f.passTargetInField;
    ProductOfUnits(a, f.passTargetInField);
    var c := b * f.shotLineFree;
    ProductOfUnits(b, f.shotLineFree);
    ProductOfUnits(c, f.targetInRange);
  }

  /** A floor in [0, 1] over factors that are all probabilities yields a
      probability: the rating of an in-field target is then in [0, 1]. */
  lemma {:induction false} FlooredInUnit(minValue: real, f: Factors)
    requires 0.0 <= minValue <= 1.0
    requires AllInUnit(f)
    ensures 0.0 <= Floored(minValue, f) <= 1.0
  {
    ProductInUnit(f);
  }

  /** The rating is a probability when the floor is one, the mapped factors
      clamp into [0, 1], `exp` decays on non-positive arguments and the shot
      factor is in [0, 1] (which depends on the expected-goals rating). */
  lemma {:induction false} RatingIsProbability(o: Oracles, p: Params, w: World, base: Vec2, target: Vec2, isPositioning: bool)
    requires w.insideField(target) && p.calcShotDistance ==> GaussianDefined(o, p, w, base, target)
    requires MapsIntoUnit(o) && ExpDecays(o) && 0.0 <= p.minValue <= 1.0
    requires w.insideField(target) ==> 0.0 <= ShotFactor(o, p, w, base, target) <= 1.0
    ensures 0.0 <= GetRating(o, p, w, base, target, isPositioning) <= 1.0
  {
    if w.insideField(target) {
      if p.calcShotDistance {
        TargetInRangeInUnit(o, p, w, base, target);
      }
      FlooredInUnit(p.minValue, RatingFactors(o, p, w, base, target, isPositioning));
    }
  }
}

=== FILE: posehypothesis.dfy ===
/** Bookkeeping of one self-localization pose hypothesis
    (`UKFRobotPoseHypothesis`): initialization, the field mirror, the running
    validity average, invalidation and the floored resampling weighting. The
    Unscented Kalman filter arithmetic of the base class is not modelled; the
    covariance is carried as a symmetric 3x3 matrix only so that `Init` and
    `Mirror` can say what they do to it. */
module PoseHypothesis {

  import opened MathTools

  /** `Pose2f`: a rotation and a translation. */
  datatype Pose = Pose(rotation: real, x: real, y: real)

  /** Symmetric covariance over (x, y, rotation); only the upper triangle. */
  datatype Covariance = Covariance(xx: real, xy: real, xr: real, yy: real, yr: real, rr: real)

  datatype Hypothesis = Hypothesis(
    mean: Pose,
    cov: Covariance,
    weighting: real,
    validity: real,
    id: int)

  /** Number of full turns `Normalize` adds to bring an angle into (-pi, pi]. */
  function Turns(a: real): int {
    ((Pi - a) / TwoPi).Floor
  }

  /** The angle congruent to `a` modulo 2*pi that lies in (-pi, pi]. */
  function Normalize(a: real): (r: real)
    ensures -Pi < r <= Pi
    ensures r - a == (Turns(a) as real) * TwoPi
  {
    var k := Turns(a);
    var q := (Pi - a) / TwoPi;
    assert k as real <= q < k as real + 1.0;
    assert q * TwoPi == Pi - a;
    assert (k as real) * TwoPi <= Pi - a;
    assert Pi - a < (k as real) * TwoPi + TwoPi;
    a + (k as real) * TwoPi
  }

  /** Two angles of (-pi, pi] that differ by whole turns are equal. */
  lemma {:induction false} SameTurnClass(r: real, s: real, m: int)
    requires -Pi < r <= Pi && -Pi < s <= Pi
    requires r == s + (m as real) * TwoPi
    ensures r == s
  {
    if m >= 1 {
      assert false;
    } else if m <= -1 {
      assert false;
    }
  }

  /** `Normalize` returns the unique representative of a's turn class. */
  lemma {:induction false} NormalizeCharacterized(a: real, r: real, k: int)
    requires -Pi < r <= Pi
    requires r == a + (k as real) * TwoPi
    ensures Normalize(a) == r
  {
    var n := Normalize(a);
    var t := Turns(a);
    assert n == a + (t as real) * TwoPi;
    assert n == r + ((t - k) as real) * TwoPi;
    SameTurnClass(n, r, t - k);
  }

  /** An angle already in (-pi, pi] is left alone. */
  lemma NormalizeFixesNormalized(a: real)
    requires -Pi < a <= Pi
    ensures Normalize(a) == a
  {
    NormalizeCharacterized(a, a, 0);
  }

  /** `init`: sets mean, covariance (squared deviations on the diagonal), id
      and validity. The weighting is left to `ComputeWeightingBasedOnValidity`. */
  function Init(h: Hypothesis, pose: Pose, poseDeviation: Pose, id: int, validity: real): (r: Hypothesis)
    ensures r.id == id && r.validity == validity
    ensures r.mean == pose
    ensures r.weighting == h.weighting
    ensures r.cov.xx == poseDeviation.x * poseDeviation.x && r.cov.xx >= 0.0
    ensures r.cov.yy == poseDeviation.y * poseDeviation.y && r.cov.yy >= 0.0
    ensures r.cov.rr == poseDeviation.rotation * poseDeviation.rotation && r.cov.rr >= 0.0
    ensures r.cov.xy == 0.0 && r.cov.xr == 0.0 && r.cov.yr == 0.0
  {
    Hypothesis(
      pose,
      Covariance(poseDeviation.x * poseDeviation.x, 0.0, 0.0,
                 poseDeviation.y * poseDeviation.y, 0.0,
                 poseDeviation.rotation * poseDeviation.rotation),
      h.weighting, validity, id)
  }

  /** The point-symmetric pose: rotated by pi around the field's center. The
      interval (-pi, pi] of the resulting rotation is this model's choice. */
  function MirrorPose(p: Pose): (r: Pose)
    ensures r.x == -p.x && r.y == -p.y
    ensures -Pi < r.rotation <= Pi
    ensures r.rotation == Normalize(p.rotation + Pi)
  {
    Pose(Normalize(p.rotation + Pi), -p.x, -p.y)
  }

  /** Congruent rotation of the covariance by pi: the x/y axes flip sign, so
      only their correlations with the rotation change sign. */
  function MirrorCovariance(c: Covariance): (r: Covariance)
    ensures r.xx == c.xx && r.yy == c.yy && r.rr == c.rr && r.xy == c.xy
    ensures r.xr == -c.xr && r.yr == -c.yr
  {
    Covariance(c.xx, c.xy, -c.xr, c.yy, -c.yr, c.rr)
  }

  /** `mirror`: turns the whole pose estimate by 180 degrees around the
      field's center; bookkeeping is untouched. */
  function Mirror(h: Hypothesis): (r: Hypothesis)
    ensures r.mean.x == -h.mean.x && r.mean.y == -h.mean.y
    ensures -Pi < r.mean.rotation <= Pi
    ensures r.mean.rotation - (h.mean.rotation + Pi) == (Turns(h.mean.rotation + Pi) as real) * TwoPi
    ensures r.cov == MirrorCovariance(h.cov)
    ensures r.weighting == h.weighting && r.validity == h.validity && r.id == h.id
  {
    var turned := MirrorPose(h.mean);
    assert turned.rotation == Normalize(h.mean.rotation + Pi);
    h.(mean := turned, cov := MirrorCovariance(h.cov))
  }

  /** Mirroring twice restores a hypothesis whose rotation is normalized. */
  lemma {:induction false} MirrorTwice(h: Hypothesis)
    requires -Pi < h.mean.rotation <= Pi
    ensures Mirror(Mirror(h)) == h
  {
    var a := h.mean.rotation;
    var k := Turns(a + Pi);
    var once := Normalize(a + Pi);
    assert once == a + Pi + (k as real) * TwoPi;
    assert once + Pi == a + ((k + 1) as real) * TwoPi;
    SameTurnClass(Normalize(once + Pi), a,
                  Turns(once + Pi) + k + 1);
    assert Mirror(Mirror(h)).mean == h.mean;
  }

  /** `updateValidity`: the old validity weighted by frames - 1 and the
      current one weighted by 1, averaged over `frames`. */
  function UpdateValidity(h: Hypothesis, frames: int, currentValidity: real): (r: Hypothesis)
    requires frames >= 1
    ensures r.validity * (frames as real) == h.validity * ((frames - 1) as real) + currentValidity
    ensures r == h.(validity := r.validity)
  {
    h.(validity := (h.validity * ((frames - 1) as real) + currentValidity) / (frames as real))
  }

  /** A single frame replaces the validity entirely. */
  lemma UpdateValidityOneFrame(h: Hypothesis, v: real)
    ensures UpdateValidity(h, 1, v).validity == v
  {
  }

  /** The updated validity lies between the old one and the current one, and
      strictly between them when more than one frame is averaged. */
  lemma {:induction false} UpdateValidityBetween(h: Hypothesis, frames: int, v: real)
    requires frames >= 1
    ensures Min(h.validity, v) <= UpdateValidity(h, frames, v).validity <= Max(h.validity, v)
    ensures frames > 1 && h.validity != v ==>
              Min(h.validity, v) < UpdateValidity(h, frames, v).validity < Max(h.validity, v)
  {
    var f := frames as real;
    var prev := h.validity;
    var r := UpdateValidity(h, frames, v).validity;
    assert r * f == prev * (f - 1.0) + v;
    // r - prev == (v - prev) / f and r - v == (prev - v) * (f - 1) / f
    assert (r - prev) * f == v - prev;
    assert (r - v) * f == (prev - v) * (f - 1.0);
    assert (v - r) * f == (v - prev) * (f - 1.0);
    SignOfScaled(r - prev, f);
    SignOfScaled(v - r, f);
    if frames > 1 {
      SignOfScaled(v - prev, f - 1.0);
    }
  }

  /** Multiplying by a positive factor keeps the sign. */
  lemma SignOfScaled(x: real, f: real)
    requires f > 0.0
    ensures x * f >= 0.0 <==> x >= 0.0
    ensures x * f > 0.0 <==> x > 0.0
    ensures x * f <= 0.0 <==> x <= 0.0
    ensures x * f < 0.0 <==> x < 0.0
  {
  }

  /** Validities in [0, 1] stay in [0, 1]. */
  lemma UpdateValidityInUnit(h: Hypothesis, frames: int, v: real)
    requires frames >= 1
    requires 0.0 <= h.validity <= 1.0 && 0.0 <= v <= 1.0
    ensures 0.0 <= UpdateValidity(h, frames, v).validity <= 1.0
  {
    UpdateValidityBetween(h, frames, v);
  }

  /** `invalidate`: validity becomes 0, nothing else changes. */
  function Invalidate(h: Hypothesis): (r: Hypothesis)
    ensures r.validity == 0.0
    ensures r.mean == h.mean && r.cov == h.cov && r.weighting == h.weighting && r.id == h.id
  {
    h.(validity := 0.0)
  }

  /** `computeWeightingBasedOnValidity`: the validity, floored at the base
      weighting. Only the weighting changes. */
  function ComputeWeightingBasedOnValidity(h: Hypothesis, baseValidityWeighting: real): (r: Hypothesis)
    ensures r.weighting >= baseValidityWeighting
    ensures r.weighting >= h.validity
    ensures r.weighting == h.validity || r.weighting == baseValidityWeighting
    ensures r == h.(weighting := r.weighting)
  {
    h.(weighting := Max(h.validity, baseValidityWeighting))
  }

  /** An invalidated hypothesis gets exactly the base weighting: it is
      demoted, never weighted below the floor, and weighted 0 only when the
      base is 0. */
  lemma InvalidatedWeighting(h: Hypothesis, base: real)
    requires base >= 0.0
    ensures ComputeWeightingBasedOnValidity(Invalidate(h), base).weighting == base
    ensures ComputeWeightingBasedOnValidity(Invalidate(h), base).weighting == 0.0 <==> base == 0.0
  {
  }

  /** With validity and base in [0, 1] the weighting is in [0, 1]. */
  lemma WeightingInUnit(h: Hypothesis, base: real)
    requires 0.0 <= h.validity <= 1.0 && 0.0 <= base <= 1.0
    ensures 0.0 <= ComputeWeightingBasedOnValidity(h, base).weighting <= 1.0
  {
  }
}
